=== FILE: README.md ===
# Cue points tracker engine, modelled in Dafny

The engine tracks a virtual playback clock against a list of cue-point times
and tells a delegate which cue points were gone through (going forward) or
restored (going back). It consists of two classes:

- `CuePointsTrackerImpl`: the cue points, a clock made of `startDate`,
  `isPlaying` and `staticCurrentTime`, and the cursor `lastSentPointIndex`.
  Its operations are `add`, the `currentTime` getter, `start`, `pause` and
  `seek`. Three helpers support them: `indicesForPoints` (the run crossed by
  a seek), `startIndexForForwarding` (the first unreported index) and
  `startWaitingForNextPoint` (the debounced look-ahead that schedules one
  closure on the executor).
- `CancellableTaskExecutorImpl`: a generation counter that wraps after 101.
  `cancel` bumps it, `execute(after:handler:)` cancels and then queues a
  closure that captures the counter, and a queued closure runs its handler
  only when the counter still equals what it captured.

The model is a functional state machine. `CuePointsTracker.Tracker` is an
immutable record with the class's stored properties, and each operation is a
pure function that returns the next record. Every operation that reads the
wall clock takes the instant `now` as a parameter; `add` does not read it.
`seek` and a closure firing also return the delegate calls they made
(`WentThrough` / `Restored` events); `start` and `pause` make none and return
only the record. The `currentTime` getter can rewrite `startDate`, so it
returns both the value it reads and the new record. The executor
(`TaskExecutor.Executor`) holds the counter and the queue of closures not yet
run. Each queued closure is an `Entry` holding the captured generation, the
instant it falls due and a handler tag. `TaskExecutor.Fire` and
`CuePointsTracker.Fire` are the step the dispatch queue takes when a closure
falls due.

Files:

- `wrappers.dfy`: `Option`.
- `executor.dfy` (`TaskExecutor`): the wrapping executor.
- `executor_reference.dfy` (`ExecutorReference`): an executor whose
  generation never wraps. It is the reference the real one is proved
  against.
- `search.dfy` (`CueSearch`): `firstIndex(where:)`, `lastIndex(where:)` and
  closed index ranges.
- `tracker.dfy` (`CuePointsTracker`): the tracker's record and operations.
- `tracker_properties.dfy` (`TrackerProperties`): properties of single
  operations.
- `tracker_invariant.dfy` (`TrackerInvariant`): the clock/cursor invariant
  and its preservation.
- `scenarios.dfy` (`Scenarios`): the unit tests' scenarios, restated as
  lemmas.

Where the code and the idealised description of the engine differ, the
model follows the code:

- The no-op check of `seek` compares the clock with the unclamped target
  (CuePointsTrackerEngine/CuePointsTracker.swift:109). The direction of the
  crossing and the crossed run also use the unclamped target. So the "clamp
  laws" do not hold. `seek(x)` for x above the last point is not the same as
  `seek(last point)`, and `seek(x)` for x below zero is not the same as
  `seek(0)`. `TrackerProperties.SeekPastEndIsNotSeekToEnd` and
  `TrackerProperties.SeekBelowZeroIsNotSeekToZero` prove this.
- The look-ahead searches for the next point from index 0, not from the
  first unreported index (line 156). The range `start...next` it reports is
  still well formed whenever every reported point lies at or before the
  clock and the debounce gap is at least 0
  (`TrackerProperties.LookAheadNotBehindStart`). With a negative gap it can
  trap: points 1.0 and 2.0, cursor 0, clock 1.0 and gap -0.5 give start 1
  and next 0 (`TrackerProperties.LookAheadNeedsGap`).
- The look-ahead batches the points within the debounce gap of the clock,
  not of the point it waits for. So the debounce law "two points closer than
  the gap are reported by one delegate call" does not hold. Over points 5.0,
  5.3 and 10.0 with gap 0.5, index 0 is reported alone at 5.0 and index 1
  only at 10.0, in a second call (`TrackerProperties.DebounceSplitsClosePoints`).
- The pause snapshot is the unclamped elapsed time (line 44). A clock paused
  after running past the last point reads more than the last point
  (`TrackerProperties.PauseSnapshotUnclamped`).

## Model

| member | source | states |
|---|---|---|
| TaskExecutor.Init | CuePointsTrackerEngine/CancellableTaskExecutor.swift:20 | A new executor's counter is 0 and its queue is empty. |
| TaskExecutor.NextCounter | CuePointsTrackerEngine/CancellableTaskExecutor.swift:35-37 | The counter step always changes the counter and always lands in 0...101. On an in-range value it is the successor modulo 102. |
| TaskExecutor.Cancel | CuePointsTrackerEngine/CancellableTaskExecutor.swift:35-37 | `cancel` leaves the queue alone, always changes the counter and keeps it in range. Every closure that was live becomes stale. |
| TaskExecutor.Execute | CuePointsTrackerEngine/CancellableTaskExecutor.swift:24-33 | `execute` queues exactly one new closure. It captures the bumped counter, falls due at now + delay and is live. Every closure that was live before is superseded. |
| TaskExecutor.Fire | CuePointsTrackerEngine/CancellableTaskExecutor.swift:28-31 | A firing removes only the fired closure and never changes the counter. It yields the handler if and only if the captured generation equals the counter. |
| TaskExecutor.BumpsIsModular | CuePointsTrackerEngine/CancellableTaskExecutor.swift:36 | The counter has period 102: n cancels from c give (c + n) mod 102. |
| TaskExecutor.StaleWithinPeriod | CuePointsTrackerEngine/CancellableTaskExecutor.swift:36 | Between 1 and 101 bumps after a capture, the captured value is stale. |
| TaskExecutor.RevivedAfterPeriod | CuePointsTrackerEngine/CancellableTaskExecutor.swift:36 | After 102 bumps the counter is back at the captured value, so staleness cannot be claimed beyond one period. |
| TaskExecutor.CancelKillsScheduled | CuePointsTrackerEngineTests/CuePointsCancellableTaskExecutorTests.swift:26-40 | `execute` followed by `cancel` leaves the scheduled closure stale. |
| ExecutorReference.WrapCancel | CuePointsTrackerEngine/CancellableTaskExecutor.swift:35-37 | The wrapping `cancel` is the reference's unbounded epoch increment, taken modulo 102. |
| ExecutorReference.WrapExecute | CuePointsTrackerEngine/CancellableTaskExecutor.swift:24-27 | The wrapping `execute` is the reference's `execute`, taken modulo 102. |
| ExecutorReference.WrapFireState | CuePointsTrackerEngine/CancellableTaskExecutor.swift:28-31 | Whatever the closure's age, firing removes the same closure from both executors and leaves both counters alone. |
| ExecutorReference.WrapFire | CuePointsTrackerEngine/CancellableTaskExecutor.swift:28-31 | The wrapping counter runs a fired closure exactly when the reference does, if the closure is younger than one period. |
| ExecutorReference.LiveAgrees | CuePointsTrackerEngine/CancellableTaskExecutor.swift:28-37 | The real counter and the reference agree on whether a closure younger than 102 bumps is live. |
| ExecutorReference.RefAtMostOneLive | CuePointsTrackerEngine/CancellableTaskExecutor.swift:24-37 | In the reference, only the most recently queued closure can be live. |
| ExecutorReference.RunRefines | CuePointsTrackerEngine/CancellableTaskExecutor.swift:16-38 | After any run of `execute`, `cancel` and firings, the real executor is the wrapped reference, and the reference's ordering invariant holds. |
| ExecutorReference.RefLiveIsLastExecute | CuePointsTrackerEngine/CancellableTaskExecutor.swift:24-37 | A live closure in the reference was queued by the last call that moved the counter, and that call was an `execute`. |
| ExecutorReference.AtMostOneLive | CuePointsTrackerEngine/CancellableTaskExecutor.swift:24-37 | At most one live callback. Take any run that leaves no queued closure 102 or more bumps old. A live closure of the real executor is then the last one queued. It carries the handler of the latest `execute`, and no `cancel` came after that `execute`. |
| CueSearch.FirstAbove | CuePointsTrackerEngine/CuePointsTracker.swift:195 | `firstIndex(where: > bound)` on a slice returns the first index of the slice above the bound. It is none exactly when no point of the slice is above the bound. |
| CueSearch.LastAtMost | CuePointsTrackerEngine/CuePointsTracker.swift:183-184 | `lastIndex(where: <= bound)` on a suffix returns the last index at most the bound, and every later point is above it. It is none exactly when the whole suffix is above the bound. |
| CueSearch.Range | CuePointsTrackerEngine/CuePointsTracker.swift:202 | `(lo...hi).map { $0 }` has hi - lo + 1 elements, and its k-th element is lo + k. |
| CuePointsTracker.Init | CuePointsTrackerEngine/CuePointsTracker.swift:65-68 | A new tracker has no points, an unset clock, no cursor, the given debounce gap and an executor with counter 0 and nothing queued. |
| CuePointsTracker.CurrentTime | CuePointsTrackerEngine/CuePointsTracker.swift:72-83 | The getter returns nil exactly when `startDate` is nil, and it changes nothing but `startDate`. While playing, it reads the elapsed time or the last point, whichever is smaller, and pins `startDate` to that reading. While paused, it reads `staticCurrentTime`. |
| CuePointsTracker.SetPlaying | CuePointsTrackerEngine/CuePointsTracker.swift:31-47 | The `isPlaying` observer sets the flag and changes nothing when the flag is unchanged. The first play sets `startDate` to now, and a resume sets it to now minus the snapshot. A pause sets the snapshot to the time elapsed since `startDate`. Only the clock fields change. |
| CuePointsTracker.StartIndexForForwarding | CuePointsTrackerEngine/CuePointsTracker.swift:205-218 | The first unreported index is the cursor + 1, or 0 with no cursor. It is nil exactly when the cursor is on the final index. |
| CuePointsTracker.NextPointIndex | CuePointsTrackerEngine/CuePointsTracker.swift:156 | The look-ahead index is the first point above t + gap, or the last index when there is none. |
| CuePointsTracker.WaitForNextPoint | CuePointsTrackerEngine/CuePointsTracker.swift:148-167 | An unset clock or a cursor on the final index schedules nothing. Otherwise exactly one `execute` is made, with delay points[next] - t and the captured run start...next. Only the getter's `startDate` rewrite changes anything else. |
| CuePointsTracker.Start | CuePointsTrackerEngine/CuePointsTracker.swift:85-89 | `start` is a no-op on an empty list or while playing. Otherwise it leaves the clock playing and started and keeps the points and the cursor. It also queues exactly one live look-ahead closure starting at the first unreported index, or queues nothing when every point was reported. |
| CuePointsTracker.Pause | CuePointsTrackerEngine/CuePointsTracker.swift:91-95 | `pause` stops the clock and cancels the executor. A playing clock snapshots the unclamped elapsed time, and a paused one keeps its snapshot. |
| CuePointsTracker.Add | CuePointsTrackerEngine/CuePointsTracker.swift:142-144 | `add` appends the new points after the old ones and changes nothing else. |
| CuePointsTracker.Corrected | CuePointsTrackerEngine/CuePointsTracker.swift:101-107 | The corrected seek target is the last point above the last point, 0 below zero, and the target otherwise. |
| CuePointsTracker.IndicesForPoints | CuePointsTrackerEngine/CuePointsTracker.swift:170-203 | The crossed run is contiguous, ascending and inside the list. Forward, it starts at the first unreported index and ends at the last point at most the destination. It is nil exactly when there is no unreported index or every unreported point is beyond the destination. Backward, it is nil with no cursor. Otherwise it ends at the cursor and starts at the first point beyond the destination, and it is nil exactly when no point up to the cursor lies beyond the destination. |
| CuePointsTracker.Seek | CuePointsTrackerEngine/CuePointsTracker.swift:97-140 | Its own contract is the frame: the result is well formed, the points, play state and gap are kept, and at most one delegate call is made. Its behaviour is stated by `TrackerProperties.SeekEarlyReturn`, `TrackerProperties.SeekClamp`, `TrackerProperties.SeekWithoutCrossing`, `TrackerProperties.SeekForwardCrossing`, `TrackerProperties.SeekBackwardCrossing`, `TrackerProperties.SeekRewaits` (a playing clock waits for the next point again), `TrackerProperties.SeekPausedOnlyCancels` (a paused clock only cancels) and `TrackerInvariant.SeekKeepsGood`. |
| CuePointsTracker.MoveClock | CuePointsTrackerEngine/CuePointsTracker.swift:113-119 | The seek's clock move shifts a playing clock's start date by the distance travelled, or sets a paused clock's snapshot to the corrected target. |
| CuePointsTracker.Report | CuePointsTrackerEngine/CuePointsTracker.swift:121-134 | No run means no event. A forward run emits `WentThrough` and puts the cursor on its last index. A backward run emits `Restored` and puts the cursor just before its first index, or unsets it at 0. |
| CuePointsTracker.Fire | CuePointsTrackerEngine/CuePointsTracker.swift:160-166 | A stale closure only leaves the queue. A live one traps exactly when start > next. Otherwise it reports `WentThrough(start...next)`, moves the cursor to next and waits for the next point again. While a point is left, the queue left by the firing is kept and one live closure starting at next + 1 is appended; after the final point, nothing is queued. |
| TrackerProperties.ReadKeepsPosition | CuePointsTrackerEngine/CuePointsTracker.swift:76-80 | Reading the clock never changes what it reads, then or later. |
| TrackerProperties.PositionMonotonic | CuePointsTrackerEngine/CuePointsTracker.swift:72-83 | The clock never runs backwards as time passes. |
| TrackerProperties.CorrectedIsClamp | CuePointsTrackerEngine/CuePointsTracker.swift:101-107 | The corrected target is the target clamped into [0, last point]. |
| TrackerProperties.SeekEarlyReturn | CuePointsTrackerEngine/CuePointsTracker.swift:97-111 | Take an unset clock, or a target equal to the reading. Then `seek` emits nothing and keeps the cursor and the reading. The executor is still cancelled, and nothing new is scheduled. |
| TrackerProperties.SeekClamp | CuePointsTrackerEngine/CuePointsTracker.swift:101-119 | Right after a `seek` that does not return early, the clock reads the target clamped into [0, last point], whether playing or paused. |
| TrackerProperties.SeekPastEndIsNotSeekToEnd | CuePointsTrackerEngine/CuePointsTracker.swift:103-111 | With the clock on the last point, `seek(last point)` is a no-op, but a seek beyond it reports every unreported point. |
| TrackerProperties.SeekBelowZeroIsNotSeekToZero | CuePointsTrackerEngine/CuePointsTracker.swift:105-111 | With the clock at 0 and a point at 0 already reported, `seek(0)` is a no-op, but a seek below zero restores that point. |
| TrackerProperties.DebounceSplitsClosePoints | CuePointsTrackerEngine/CuePointsTracker.swift:148-167 | Over points 5.0, 5.3 and 10.0 with gap 0.5, `start` waits for index 0 alone. Its firing at 5.0 reports only [0] and then waits for index 2 at 10.0, so two points 0.3 apart are reported by two calls. |
| TrackerProperties.SeekRewaits | CuePointsTrackerEngine/CuePointsTracker.swift:136-138 | A seek on a playing clock that does not return early keeps the old queue and appends exactly one live look-ahead closure from the first unreported index, or only cancels the executor when every point is reported. |
| TrackerProperties.SeekPausedOnlyCancels | CuePointsTrackerEngine/CuePointsTracker.swift:136-138 | A seek on a paused clock that does not return early queues nothing: the executor is only cancelled. |
| TrackerProperties.SeekWithoutCrossing | CuePointsTrackerEngine/CuePointsTracker.swift:121-134 | A seek that crosses no run emits nothing and keeps the cursor. |
| TrackerProperties.SeekForwardCrossing | CuePointsTrackerEngine/CuePointsTracker.swift:121-129 | A forward seek emits `WentThrough` of the crossed run and puts the cursor on its last index. |
| TrackerProperties.SeekBackwardCrossing | CuePointsTrackerEngine/CuePointsTracker.swift:121-133 | A backward seek emits `Restored` of the crossed run and puts the cursor just before its first index, or unsets it. |
| TrackerProperties.IndicesIgnoreClock | CuePointsTrackerEngine/CuePointsTracker.swift:170-203 | The crossed run depends only on the points, the cursor and the two times. |
| TrackerProperties.ForwardRunBelowTarget | CuePointsTrackerEngine/CuePointsTracker.swift:178-184 | On a sorted list, every point of a forward run is at most the destination. |
| TrackerProperties.BackwardRunAboveTarget | CuePointsTrackerEngine/CuePointsTracker.swift:186-196 | On a sorted list, every point of a backward run is beyond the destination. |
| TrackerProperties.ForwardRunIs | CuePointsTrackerEngine/CuePointsTracker.swift:178-202 | On a sorted list, the forward run runs from the first unreported index to the last point at most the destination. |
| TrackerProperties.BackwardRunIs | CuePointsTrackerEngine/CuePointsTracker.swift:186-202 | On a sorted list, the backward run runs from the first point beyond the destination to the cursor. |
| TrackerProperties.FirstStartReadsZero | CuePointsTrackerEngine/CuePointsTracker.swift:35-37 | When the last point is not negative, the first `start` sets the clock to 0. |
| TrackerProperties.ResumeReadsSnapshot | CuePointsTrackerEngine/CuePointsTracker.swift:38-41 | Resuming from a snapshot within the timeline reads that snapshot. |
| TrackerProperties.PauseResumeContinuity | CuePointsTrackerEngine/CuePointsTracker.swift:31-47 | On a playing clock, `pause` then `start` at the same instant keep the reading. |
| TrackerProperties.PauseIsIdempotent | CuePointsTrackerEngine/CuePointsTracker.swift:91-95 | A second `pause`, even later, keeps the snapshot and the reading. |
| TrackerProperties.PauseSnapshotUnclamped | CuePointsTrackerEngine/CuePointsTracker.swift:42-45 | Pausing after running past the last point snapshots the full elapsed time, which is more than the clock read. |
| TrackerProperties.LookAheadNotBehindStart | CuePointsTrackerEngine/CuePointsTracker.swift:154-164 | Suppose every reported point lies at or before the clock and the gap is not negative. Then the look-ahead index is at least the first unreported index, so `start...next` does not trap. |
| TrackerProperties.LookAheadNeedsGap | CuePointsTrackerEngine/CuePointsTracker.swift:154-156 | With points 1.0 and 2.0, cursor 0 and gap -0.5, a clock at 1.0 gives start 1 but next 0, so the range `start...next` would trap. |
| TrackerProperties.LookAheadDeadline | CuePointsTrackerEngine/CuePointsTracker.swift:156-160 | On a sorted list, the closure queued by the look-ahead falls due exactly when the undisturbed clock reaches the point it waits for. |
| TrackerProperties.LookAheadBatches | CuePointsTrackerEngine/CuePointsTracker.swift:156 | On a sorted list, every point within the gap of the clock lies at or before the index the look-ahead waits for. This bounds the batch from above only; it is not the debounce law, which fails (`TrackerProperties.DebounceSplitsClosePoints`). |
| TrackerInvariant.GoodInit | CuePointsTrackerEngine/CuePointsTracker.swift:65-68 | A new tracker with a non-negative gap satisfies the clock/cursor invariant. |
| TrackerInvariant.GoodOverTime | CuePointsTrackerEngine/CuePointsTracker.swift:72-83 | The invariant survives the passing of time. |
| TrackerInvariant.CancelNotRevived | CuePointsTrackerEngine/CancellableTaskExecutor.swift:35-37 | A cancel uses up one bump of the revival margin and leaves every queued closure stale. |
| TrackerInvariant.AddNotBehind | CuePointsTrackerEngine/CuePointsTracker.swift:142-144 | Appending points that keep the list sorted never moves the clock back. |
| TrackerInvariant.AddKeepsGood | CuePointsTrackerEngine/CuePointsTracker.swift:142-144 | `add` of points that keep the list sorted keeps the invariant. |
| TrackerInvariant.PauseKeepsGood | CuePointsTrackerEngine/CuePointsTracker.swift:91-95 | `pause` keeps the invariant. |
| TrackerInvariant.WaitKeepsGood | CuePointsTrackerEngine/CuePointsTracker.swift:148-167 | The look-ahead keeps the invariant. Its closure has a well-formed range, and the clock has reached its point by the time it falls due. |
| TrackerInvariant.StartKeepsGood | CuePointsTrackerEngine/CuePointsTracker.swift:85-89 | `start` keeps the invariant. |
| TrackerInvariant.MoveClockNotBehindTarget | CuePointsTrackerEngine/CuePointsTracker.swift:113-119 | After the seek's clock move, the clock reads at least the smaller of the target and the last point. |
| TrackerInvariant.ReportBehindTarget | CuePointsTrackerEngine/CuePointsTracker.swift:121-134 | After the seek's report, every point up to the cursor lies at or before the target. |
| TrackerInvariant.SeekKeepsGood | CuePointsTrackerEngine/CuePointsTracker.swift:97-140 | `seek` keeps the invariant. |
| TrackerInvariant.FireKeepsGood | CuePointsTrackerEngine/CuePointsTracker.swift:160-166 | A due closure firing in a tracker that satisfies the invariant never traps, and it keeps the invariant. |
| Scenarios.SeekForwardThenBack | CuePointsTrackerEngineTests/CuePointsTrackerTests.swift:98-117 | Over points 1...10, seeking to the fifth point reports 0...4, and seeking back to the third restores 3...4. |
| Scenarios.PausedSeekForwardThenBack | CuePointsTrackerEngineTests/CuePointsTrackerTests.swift:156-175 | While paused, seeking to the fourth point reports 0...3, and seeking back to the second restores 2...3. |
| Scenarios.SeekPastTheEnd | CuePointsTrackerEngineTests/CuePointsTrackerTests.swift:128-141 | Seeking 20 past the end reports all ten points in one call and leaves the clock exactly on the last point. |
| Scenarios.SeekBeforeTheStart | CuePointsTrackerEngineTests/CuePointsTrackerTests.swift:119-126 | Seeking to -10 puts the clock at 0 and reports nothing. |
| Scenarios.SeekToCurrentTime | CuePointsTrackerEngineTests/CuePointsTrackerTests.swift:63-75 | Seeking to the current reading calls no delegate. |
| Scenarios.StartSchedulesFirstPoint | CuePointsTrackerEngineTests/CuePointsTrackerTests.swift:27-41 | With one point, or two points, `start` schedules one closure, due after the first point's time. |
| Scenarios.StartWithoutPoints | CuePointsTrackerEngine/CuePointsTracker.swift:85-86 | `start` on an empty list schedules nothing and leaves the clock unset. |

## Left out

- Wall-clock reads (`Date()`) are the `now` parameter. Every read within one call sees the same instant.
- `DispatchQueue.main.asyncAfter` is the abstract queue `pending`. Any closure may fire once its deadline has passed (`CuePointsTracker.Fire`). Real scheduling and main-queue threading are not modelled, and all calls are assumed to be serialised.
- `TimeInterval` and `Double` are Dafny `real`. IEEE rounding and the tests' `.rounded()` are not modelled.
- The delegate and `[weak self]` captures are not modelled. The delegate is the emitted event list, and the tracker and executor are assumed to stay alive.
- The UI files and `CuePointsFactory.swift` are not part of this model. They are display code and wiring only.
- The tests that sleep on the wall clock (CuePointsTrackerTests.swift:43-59, 179-193) and the executor's timing test (CuePointsCancellableTaskExecutorTests.swift:14-24) depend on real elapsed time. They are not restated.
- Swift's runtime traps are excluded by the requires `CuePointsTracker.WellFormed`, which every operation preserves. These are the force-unwrap of `startDate`, the subscript `cuePoints[count - 1]` on an empty list and slices beyond the end. The one trap a reachable state can still hit is the range `start...nextPointIndex` with start > next. `CuePointsTracker.Fire` returns `None` for it.
- CuePointsTracker.Seek: its own contract states only the frame (well-formedness, points, play state, at most one event). Its behaviour is stated by the `TrackerProperties` seek lemmas (`SeekEarlyReturn`, `SeekClamp`, `SeekWithoutCrossing`, `SeekForwardCrossing`, `SeekBackwardCrossing`, `SeekRewaits` for the renewed look-ahead of a playing clock, and `SeekPausedOnlyCancels` for the paused clock) and `TrackerInvariant.SeekKeepsGood`.
- ExecutorReference.AtMostOneLive: holds only for runs where no queued closure has waited through 102 counter bumps, because the wrapping counter revives older closures after that.
- TrackerInvariant.PauseKeepsGood: assumes no queued closure is revived by the next counter bump, for the same wrap-around reason.
- TrackerInvariant.StartKeepsGood: assumes no queued closure is revived by the next counter bump.
- TrackerInvariant.WaitKeepsGood: assumes no queued closure is revived by the next counter bump.
- TrackerInvariant.FireKeepsGood: assumes no queued closure is revived by the next counter bump.
- TrackerInvariant.SeekKeepsGood: assumes no queued closure is revived by the next two counter bumps, since `seek` cancels and may then `execute`.
- TrackerInvariant.AddKeepsGood: assumes the appended points keep the list sorted. `add` does not check this, and a list that is not sorted breaks the clock/cursor invariant.
- TrackerInvariant.GoodInit: assumes a non-negative debounce gap. The initializer accepts any value, but the proof that the look-ahead range is well formed needs a gap of at least 0.

=== FILE: executor.dfy ===
/**
 A model of `CancellableTaskExecutorImpl`: a generation counter that wraps
 after 101, and the closures handed to the main dispatch queue, each holding
 the counter value it captured. The queue is abstract: `pending` lists the
 closures not yet run, in the order they were scheduled, and `Fire` is the
 step the queue takes when one of them comes due.
 */
module TaskExecutor {
  import opened Wrappers

  /** The largest counter value that `cancel` still increments. */
  const WrapAfter: nat := 100

  /** Number of distinct counter values: 0 through 101. */
  const Period: nat := 102

  /** A closure given to the dispatch queue: the generation it captured,
      the instant it becomes due and the handler it guards. */
  datatype Entry<H> = Entry(gen: nat, deadline: real, handler: H)

  datatype Executor<H> = Executor(counter: nat, pending: seq<Entry<H>>)

  /** Every counter value the code can produce lies in 0...101, and so does
      every captured generation. */
  ghost predicate Valid<H>(ex: Executor<H>) {
    && ex.counter < Period
    && forall k :: 0 <= k < |ex.pending| ==> ex.pending[k].gen < Period
  }

  /** The entry at index k would run its handler if it fired now. */
  predicate IsLive<H>(ex: Executor<H>, k: nat)
    requires k < |ex.pending|
  {
    ex.pending[k].gen == ex.counter
  }

  function Init<H>(): (ex: Executor<H>)
    ensures ex.counter == 0 && ex.pending == []
    ensures Valid(ex)
  {
    Executor(0, [])
  }

  /** The counter step of `cancel`. */
  function NextCounter(c: nat): (r: nat)
    ensures r != c
    ensures r < Period
    ensures c < Period ==> r == (c + 1) % Period
  {
    if c > WrapAfter then 0 else c + 1
  }

  /** `cancel`: advance the counter; the queued closures stay queued. */
  function Cancel<H>(ex: Executor<H>): (r: Executor<H>)
    ensures r.pending == ex.pending
    ensures r.counter != ex.counter
    ensures Valid(ex) ==> Valid(r)
    ensures forall k :: 0 <= k < |ex.pending| && IsLive(ex, k) ==> !IsLive(r, k)
  {
    Executor(NextCounter(ex.counter), ex.pending)
  }

  /** `execute(after:handler:)` at wall-clock `now`: cancel, capture the new
      counter, and queue a closure due at `now + delay`. */
  function Execute<H>(ex: Executor<H>, now: real, delay: real, handler: H): (r: Executor<H>)
    ensures |r.pending| == |ex.pending| + 1
    ensures r.pending[..|ex.pending|] == ex.pending
    ensures r.pending[|ex.pending|] == Entry(r.counter, now + delay, handler)
    ensures r.counter != ex.counter
    ensures Valid(ex) ==> Valid(r)
    ensures IsLive(r, |ex.pending|)
    ensures forall k :: 0 <= k < |ex.pending| && IsLive(ex, k) ==> !IsLive(r, k)
  {
    var c := Cancel(ex);
    Executor(c.counter, c.pending + [Entry(c.counter, now + delay, handler)])
  }

  /** The queue runs the closure at index k: it leaves the queue, and its
      handler is returned (to be run) exactly when its captured generation
      still equals the counter. The counter never changes here. */
  function Fire<H>(ex: Executor<H>, k: nat): (r: (Executor<H>, Option<H>))
    requires k < |ex.pending|
    ensures r.0.counter == ex.counter
    ensures r.0.pending == ex.pending[..k] + ex.pending[k + 1..]
    ensures r.1.Some? <==> ex.pending[k].gen == ex.counter
    ensures r.1.Some? ==> r.1.value == ex.pending[k].handler
    ensures Valid(ex) ==> Valid(r.0)
  {
    var rest := Executor(ex.counter, ex.pending[..k] + ex.pending[k + 1..]);
    if ex.pending[k].gen != ex.counter then (rest, None)
    else (rest, Some(ex.pending[k].handler))
  }

  /** The counter after n calls of `cancel`. */
  function Bumps(c: nat, n: nat): nat
  {
    if n == 0 then c else NextCounter(Bumps(c, n - 1))
  }

  /** The counter has period 102: n bumps from a valid value land on
      (c + n) mod 102. */
  lemma {:induction false} BumpsIsModular(c: nat, n: nat)
    requires c < Period
    ensures Bumps(c, n) == (c + n) % Period
  {
    if n > 0 {
      BumpsIsModular(c, n - 1);
    }
  }

  /** Between 1 and 101 bumps after a capture the captured value is stale. */
  lemma StaleWithinPeriod(c: nat, n: nat)
    requires c < Period
    requires 1 <= n < Period
    ensures Bumps(c, n) != c
  {
    BumpsIsModular(c, n);
  }

  /** ... but 102 bumps bring the counter back to the captured value: a
      closure that waits that long runs as though it had never been
      cancelled. Staleness is guaranteed only inside one period. */
  lemma RevivedAfterPeriod(c: nat)
    requires c < Period
    ensures Bumps(c, Period) == c
  {
    BumpsIsModular(c, Period);
  }

  /** Cancelling right after scheduling leaves the new closure dead. */
  lemma CancelKillsScheduled<H>(ex: Executor<H>, now: real, delay: real, handler: H)
    ensures var r := Cancel(Execute(ex, now, delay, handler));
      !IsLive(r, |ex.pending|)
  {
  }
}

=== FILE: executor_reference.dfy ===
/**
 An idealised executor whose generation never wraps: `epoch` counts every
 `cancel` ever made. It is the reference the wrapping counter of
 `TaskExecutor` is checked against: the real counter is the epoch modulo
 102, and the two agree on which closures are live as long as no closure
 has waited through 102 bumps.
 */
module ExecutorReference {
  import opened Wrappers
  import opened TaskExecutor

  datatype RefExecutor<H> = RefExecutor(epoch: nat, pending: seq<Entry<H>>)

  /** Captured epochs strictly increase along the queue and none lies in
      the future. */
  ghost predicate RefInv<H>(r: RefExecutor<H>) {
    && (forall j, k :: 0 <= j < k < |r.pending| ==> r.pending[j].gen < r.pending[k].gen)
    && (forall k :: 0 <= k < |r.pending| ==> r.pending[k].gen <= r.epoch)
  }

  predicate RefIsLive<H>(r: RefExecutor<H>, k: nat)
    requires k < |r.pending|
  {
    r.pending[k].gen == r.epoch
  }

  function RefInit<H>(): RefExecutor<H> {
    RefExecutor(0, [])
  }

  function RefCancel<H>(r: RefExecutor<H>): RefExecutor<H> {
    RefExecutor(r.epoch + 1, r.pending)
  }

  function RefExecute<H>(r: RefExecutor<H>, now: real, delay: real, handler: H): RefExecutor<H> {
    RefExecutor(r.epoch + 1, r.pending + [Entry(r.epoch + 1, now + delay, handler)])
  }

  function RefFire<H>(r: RefExecutor<H>, k: nat): (RefExecutor<H>, Option<H>)
    requires k < |r.pending|
  {
    var rest := RefExecutor(r.epoch, r.pending[..k] + r.pending[k + 1..]);
    if r.pending[k].gen == r.epoch then (rest, Some(r.pending[k].handler)) else (rest, None)
  }

  /** The real executor a reference state stands for. */
  function Wrap<H>(r: RefExecutor<H>): (ex: Executor<H>)
    ensures Valid(ex)
    ensures |ex.pending| == |r.pending|
  {
    Executor(r.epoch % Period, WrapEntries(r.pending))
  }

  function WrapEntries<H>(es: seq<Entry<H>>): (ws: seq<Entry<H>>)
    ensures |ws| == |es|
    ensures forall k :: 0 <= k < |es| ==>
      ws[k] == Entry(es[k].gen % Period, es[k].deadline, es[k].handler)
  {
    seq(|es|, k requires 0 <= k < |es| => Entry(es[k].gen % Period, es[k].deadline, es[k].handler))
  }

  /** Every closure still queued captured its generation fewer than 102
      bumps ago. */
  ghost predicate AgesBelowPeriod<H>(r: RefExecutor<H>) {
    forall k :: 0 <= k < |r.pending| ==> r.epoch - r.pending[k].gen < Period
  }

  lemma WrapCancel<H>(r: RefExecutor<H>)
    ensures Wrap(RefCancel(r)) == Cancel(Wrap(r))
  {
  }

  lemma WrapExecute<H>(r: RefExecutor<H>, now: real, delay: real, handler: H)
    ensures Wrap(RefExecute(r, now, delay, handler)) == Execute(Wrap(r), now, delay, handler)
  {
    var lhs := Wrap(RefExecute(r, now, delay, handler));
    var rhs := Execute(Wrap(r), now, delay, handler);
    assert lhs.pending == rhs.pending;
  }

  /** Firing removes the same closure from both executors and leaves both
      counters alone, whatever the closure's age. */
  lemma WrapFireState<H>(r: RefExecutor<H>, k: nat)
    requires k < |r.pending|
    ensures Wrap(RefFire(r, k).0) == Fire(Wrap(r), k).0
  {
    var w := Wrap(r);
    assert w.pending[..k] + w.pending[k + 1..] == WrapEntries(r.pending[..k] + r.pending[k + 1..]);
  }

  /** The wrapping counter runs a fired closure exactly when the
      reference does, provided that closure is younger than one period. */
  lemma WrapFire<H>(r: RefExecutor<H>, k: nat)
    requires RefInv(r)
    requires k < |r.pending|
    requires r.epoch - r.pending[k].gen < Period
    ensures Wrap(RefFire(r, k).0) == Fire(Wrap(r), k).0
    ensures RefFire(r, k).1 == Fire(Wrap(r), k).1
  {
    WrapFireState(r, k);
    LiveAgrees(r, k);
  }

  /** Liveness agrees between reference and wrapped counter for young
      closures. */
  lemma LiveAgrees<H>(r: RefExecutor<H>, k: nat)
    requires RefInv(r)
    requires k < |r.pending|
    requires r.epoch - r.pending[k].gen < Period
    ensures IsLive(Wrap(r), k) <==> RefIsLive(r, k)
  {
    var g := r.pending[k].gen;
    var d := r.epoch - g;
    assert r.epoch == g + d;
    if d != 0 {
      assert (g + d) % Period != g % Period by {
        ModShift(g, d);
      }
    }
  }

  lemma ModShift(g: nat, d: nat)
    requires 0 < d < Period
    ensures (g + d) % Period != g % Period
  {
    var q := g / Period;
    var m := g % Period;
    assert g == q * Period + m;
    if m + d < Period {
      assert (g + d) % Period == m + d by {
        assert g + d == q * Period + (m + d);
      }
    } else {
      assert (g + d) % Period == m + d - Period by {
        assert g + d == (q + 1) * Period + (m + d - Period);
      }
    }
  }

  lemma RefCancelInv<H>(r: RefExecutor<H>)
    requires RefInv(r)
    ensures RefInv(RefCancel(r))
    ensures forall k :: 0 <= k < |r.pending| ==> !RefIsLive(RefCancel(r), k)
  {
  }

  lemma RefExecuteInv<H>(r: RefExecutor<H>, now: real, delay: real, handler: H)
    requires RefInv(r)
    ensures RefInv(RefExecute(r, now, delay, handler))
  {
  }

  lemma RefFireInv<H>(r: RefExecutor<H>, k: nat)
    requires RefInv(r)
    requires k < |r.pending|
    ensures RefInv(RefFire(r, k).0)
  {
    var p := r.pending[..k] + r.pending[k + 1..];
    forall i, j | 0 <= i < j < |p|
      ensures p[i].gen < p[j].gen
    {
      var i' := if i < k then i else i + 1;
      var j' := if j < k then j else j + 1;
      assert p[i] == r.pending[i'] && p[j] == r.pending[j'];
    }
  }

  /** In the reference at most one queued closure is live, and only the
      most recently queued one can be. */
  lemma RefAtMostOneLive<H>(r: RefExecutor<H>, k: nat)
    requires RefInv(r)
    requires k < |r.pending|
    requires RefIsLive(r, k)
    ensures k == |r.pending| - 1
  {
    var last := |r.pending| - 1;
    assert r.pending[last].gen <= r.epoch;
  }

  /** The calls a client makes on the executor, and the queue's firing of
      the k-th queued closure (ignored when there is none). */
  datatype Op<H> = DoExecute(now: real, delay: real, handler: H) | DoCancel | DoFire(index: nat)

  function Step<H>(ex: Executor<H>, op: Op<H>): Executor<H> {
    match op
    case DoExecute(now, delay, handler) => Execute(ex, now, delay, handler)
    case DoCancel => Cancel(ex)
    case DoFire(k) => if k < |ex.pending| then Fire(ex, k).0 else ex
  }

  function RefStep<H>(r: RefExecutor<H>, op: Op<H>): RefExecutor<H> {
    match op
    case DoExecute(now, delay, handler) => RefExecute(r, now, delay, handler)
    case DoCancel => RefCancel(r)
    case DoFire(k) => if k < |r.pending| then RefFire(r, k).0 else r
  }

  function Run<H>(ops: seq<Op<H>>): Executor<H>
    decreases |ops|
  {
    if |ops| == 0 then Init() else Step(Run(ops[..|ops| - 1]), ops[|ops| - 1])
  }

  function RefRun<H>(ops: seq<Op<H>>): RefExecutor<H>
    decreases |ops|
  {
    if |ops| == 0 then RefInit() else RefStep(RefRun(ops[..|ops| - 1]), ops[|ops| - 1])
  }

  /** The last call that moved the counter, if any. */
  function LastBump<H>(ops: seq<Op<H>>): Option<Op<H>>
    decreases |ops|
  {
    if |ops| == 0 then None
    else if ops[|ops| - 1].DoFire? then LastBump(ops[..|ops| - 1])
    else Some(ops[|ops| - 1])
  }

  /** On every run of `execute`, `cancel` and firings, the real executor is
      the wrapped reference, and the reference keeps its invariant. */
  lemma {:induction false} RunRefines<H>(ops: seq<Op<H>>)
    ensures RefInv(RefRun(ops))
    ensures Run(ops) == Wrap(RefRun(ops))
    decreases |ops|
  {
    if |ops| > 0 {
      var init := ops[..|ops| - 1];
      var op := ops[|ops| - 1];
      RunRefines(init);
      var r := RefRun(init);
      match op
      case DoExecute(now, delay, handler) =>
        RefExecuteInv(r, now, delay, handler);
        WrapExecute(r, now, delay, handler);
      case DoCancel =>
        RefCancelInv(r);
        WrapCancel(r);
      case DoFire(k) =>
        if k < |r.pending| {
          RefFireInv(r, k);
          WrapFireState(r, k);
        }
    }
  }

  /** The last queued closure is live in the reference only when the last
      counter move was the `execute` that queued it. */
  lemma {:induction false} RefLiveIsLastExecute<H>(ops: seq<Op<H>>, k: nat)
    requires RefInv(RefRun(ops))
    requires k < |RefRun(ops).pending|
    requires RefIsLive(RefRun(ops), k)
    ensures LastBump(ops).Some? && LastBump(ops).value.DoExecute?
    ensures RefRun(ops).pending[k].handler == LastBump(ops).value.handler
    decreases |ops|
  {
    var init := ops[..|ops| - 1];
    var op := ops[|ops| - 1];
    var r := RefRun(init);
    RefRunInv(init);
    match op
    case DoExecute(now, delay, handler) =>
      if k < |r.pending| {
        assert false;
      }
    case DoCancel =>
      assert false;
    case DoFire(i) =>
      if i < |r.pending| {
        var k' := if k < i then k else k + 1;
        assert RefRun(ops).pending[k] == r.pending[k'];
        RefLiveIsLastExecute(init, k');
      } else {
        RefLiveIsLastExecute(init, k);
      }
  }

  /** The reference invariant holds along every run. */
  lemma {:induction false} RefRunInv<H>(ops: seq<Op<H>>)
    ensures RefInv(RefRun(ops))
    decreases |ops|
  {
    if |ops| > 0 {
      var init := ops[..|ops| - 1];
      RefRunInv(init);
      var r := RefRun(init);
      match ops[|ops| - 1]
      case DoExecute(now, delay, handler) => RefExecuteInv(r, now, delay, handler);
      case DoCancel => RefCancelInv(r);
      case DoFire(k) => if k < |r.pending| { RefFireInv(r, k); }
    }
  }

  /** At most one live callback: after any run of `execute`, `cancel` and
      firings that leaves no queued closure 102 or more counter bumps old, a
      live closure of the real executor is the last one queued, and it was
      queued by the last call that moved the counter, which was an
      `execute`. */
  lemma AtMostOneLive<H>(ops: seq<Op<H>>, k: nat)
    requires AgesBelowPeriod(RefRun(ops))
    requires k < |Run(ops).pending|
    requires IsLive(Run(ops), k)
    ensures k == |Run(ops).pending| - 1
    ensures LastBump(ops).Some? && LastBump(ops).value.DoExecute?
    ensures Run(ops).pending[k].handler == LastBump(ops).value.handler
  {
    RunRefines(ops);
    var r := RefRun(ops);
    LiveAgrees(r, k);
    RefAtMostOneLive(r, k);
    RefLiveIsLastExecute(ops, k);
  }
}

=== FILE: scenarios.dfy ===
/**
 The behaviour the tracker's unit tests expect, restated on the model with
 every call made at the same instant `now` (the tests run within a fraction
 of a second of `start`, and compare rounded times). The point list is a
 parameter equal to `TenPoints`, so that its literal is not unfolded.
 */
module Scenarios {
  import opened Wrappers
  import opened CueSearch
  import opened CuePointsTracker
  import opened TrackerProperties

  /** `makeSut(withPointsCount: 10)`: points 1.0 through 10.0. */
  const TenPoints: seq<real> := [1.0, 2.0, 3.0, 4.0, 5.0, 6.0, 7.0, 8.0, 9.0, 10.0]

  function Fresh(points: seq<real>): Tracker {
    Add(CuePointsTracker.Init(DefaultMinInterval), points)
  }

  lemma TenPointsSorted()
    ensures forall i :: 0 <= i < |TenPoints| ==> TenPoints[i] == (i + 1) as real
    ensures Sorted(TenPoints)
  {
  }

  /** A tracker over the ten points, started at `now`, reads 0 at `now`. */
  lemma Started(points: seq<real>, now: real)
    requires points == TenPoints
    ensures var s := Start(Fresh(points), now);
      && WellFormed(s) && s.points == TenPoints && s.lastSent.None?
      && Position(s, now) == Some(0.0)
  {
    FirstStartReadsZero(Fresh(points), now);
  }

  /** From a tracker standing at `from`, before its first point, with nothing
      reported, seeking forward onto the `hi`-th point reports 0...hi. */
  lemma ForwardFromStart(s: Tracker, from: real, hi: nat, now: real)
    requires WellFormed(s) && Sorted(s.points) && s.lastSent.None?
    requires hi < |s.points| && from < s.points[0]
    requires hi + 1 < |s.points| ==> s.points[hi + 1] > s.points[hi]
    requires Position(s, now) == Some(from) && 0.0 <= from
    ensures var a := Seek(s, s.points[hi], now);
      && a.events == [WentThrough(Range(0, hi))]
      && a.state.points == s.points && a.state.lastSent == Some(hi)
      && Position(a.state, now) == Some(s.points[hi])
  {
    assert s.points[0] <= s.points[hi];
    ForwardRunIs(s, from, s.points[hi], 0, hi);
    SeekForwardCrossing(s, s.points[hi], now);
    assert s.points[hi] <= LastPoint(s.points);
    SeekClamp(s, s.points[hi], now);
  }

  /** From a tracker standing on the `last`-th point, which it has reported,
      seeking back onto the `lo - 1`-th point restores lo...last. */
  lemma BackwardToPoint(a: Tracker, lo: nat, last: nat, now: real)
    requires WellFormed(a) && Sorted(a.points) && a.lastSent == Some(last)
    requires 0 < lo <= last < |a.points| && a.points[lo] > a.points[lo - 1]
    requires Position(a, now) == Some(a.points[last])
    ensures Seek(a, a.points[lo - 1], now).events == [Restored(Range(lo, last))]
  {
    BackwardRunIs(a, a.points[last], a.points[lo - 1], lo);
    SeekBackwardCrossing(a, a.points[lo - 1], now);
  }

  lemma RangeFacts()
    ensures Range(0, 4) == [0, 1, 2, 3, 4] && Range(3, 4) == [3, 4]
    ensures Range(0, 3) == [0, 1, 2, 3] && Range(2, 3) == [2, 3]
    ensures Range(0, 9) == [0, 1, 2, 3, 4, 5, 6, 7, 8, 9]
  {
    assert Range(0, 4) == [0, 1, 2, 3, 4];
    assert Range(3, 4) == [3, 4];
    assert Range(0, 3) == [0, 1, 2, 3];
    assert Range(2, 3) == [2, 3];
    assert Range(0, 9) == [0, 1, 2, 3, 4, 5, 6, 7, 8, 9];
  }

  /** Both seeks of the scenario below, from any tracker over the ten
      points that reads 0 and has reported nothing. */
  lemma ForwardToFifth(s: Tracker, now: real)
    requires WellFormed(s) && s.points == TenPoints && s.lastSent.None?
    requires Position(s, now) == Some(0.0)
    ensures var a := Seek(s, TenPoints[4], now);
      && a.events == [WentThrough([0, 1, 2, 3, 4])]
      && Seek(a.state, TenPoints[2], now).events == [Restored([3, 4])]
  {
    TenPointsSorted();
    RangeFacts();
    ForwardFromStart(s, 0.0, 4, now);
    BackwardToPoint(Seek(s, TenPoints[4], now).state, 3, 4, now);
  }

  /** Seeking to the fifth point reports indices 0...4; seeking back to the
      third restores 3...4. */
  lemma SeekForwardThenBack(points: seq<real>, now: real)
    requires points == TenPoints
    ensures var s := Start(Fresh(points), now);
      var a := Seek(s, points[4], now);
      && a.events == [WentThrough([0, 1, 2, 3, 4])]
      && Seek(a.state, points[2], now).events == [Restored([3, 4])]
  {
    Started(points, now);
    ForwardToFifth(Start(Fresh(points), now), now);
  }

  /** Both seeks of the scenario below, from any tracker over the ten
      points that reads 0 and has reported nothing. */
  lemma ForwardToFourth(s: Tracker, now: real)
    requires WellFormed(s) && s.points == TenPoints && s.lastSent.None?
    requires Position(s, now) == Some(0.0)
    ensures var a := Seek(s, TenPoints[3], now);
      && a.events == [WentThrough([0, 1, 2, 3])]
      && Seek(a.state, TenPoints[1], now).events == [Restored([2, 3])]
  {
    TenPointsSorted();
    RangeFacts();
    ForwardFromStart(s, 0.0, 3, now);
    BackwardToPoint(Seek(s, TenPoints[3], now).state, 2, 3, now);
  }

  /** While paused, seeking to the fourth point reports 0...3 and seeking
      back to the second restores 2...3. */
  lemma PausedSeekForwardThenBack(points: seq<real>, now: real)
    requires points == TenPoints
    ensures var s := Pause(Start(Fresh(points), now), now);
      var a := Seek(s, points[3], now);
      && a.events == [WentThrough([0, 1, 2, 3])]
      && Seek(a.state, points[1], now).events == [Restored([2, 3])]
  {
    Started(points, now);
    var s := Pause(Start(Fresh(points), now), now);
    assert s.staticCurrentTime == 0.0;
    ForwardToFourth(s, now);
  }

  /** Seeking 20 past the end reports every point once and leaves the
      clock exactly on the last point. */
  lemma SeekPastTheEnd(points: seq<real>, now: real)
    requires points == TenPoints
    ensures var a := Seek(Start(Fresh(points), now), 30.0, now);
      && a.events == [WentThrough([0, 1, 2, 3, 4, 5, 6, 7, 8, 9])]
      && Position(a.state, now) == Some(10.0)
  {
    TenPointsSorted();
    Started(points, now);
    var s := Start(Fresh(points), now);
    ForwardRunIs(s, 0.0, 30.0, 0, 9);
    SeekForwardCrossing(s, 30.0, now);
    SeekClamp(s, 30.0, now);
    RangeFacts();
  }

  /** Seeking to a negative time puts the clock at zero and reports nothing,
      since nothing was reported before. */
  lemma SeekBeforeTheStart(points: seq<real>, now: real)
    requires points == TenPoints
    ensures var a := Seek(Start(Fresh(points), now), -10.0, now);
      a.events == [] && Position(a.state, now) == Some(0.0)
  {
    Started(points, now);
    var s := Start(Fresh(points), now);
    SeekWithoutCrossing(s, -10.0, now);
    SeekClamp(s, -10.0, now);
  }

  /** Seeking to the current time calls no delegate. */
  lemma SeekToCurrentTime(points: seq<real>, now: real)
    requires points == TenPoints
    ensures var s := Start(Fresh(points), now);
      Seek(s, Position(s, now).value, now).events == []
  {
    Started(points, now);
    var s := Start(Fresh(points), now);
    SeekEarlyReturn(s, 0.0, now);
  }

  /** `start` schedules one closure; with a single point 1.0, or points 1.0
      and 2.0, it is due after 1.0. */
  lemma StartSchedulesFirstPoint()
    ensures var a := Start(Fresh([1.0]), 0.0);
      |a.executor.pending| == 1 && a.executor.pending[0].deadline == 1.0
    ensures var b := Start(Fresh([1.0, 2.0]), 0.0);
      |b.executor.pending| == 1 && b.executor.pending[0].deadline == 1.0
  {
    var s := SetPlaying(Fresh([1.0]), true, 0.0);
    assert Position(s, 0.0) == Some(0.0);
    assert NextPointIndex([1.0], 0.5) == 0;
    var t := SetPlaying(Fresh([1.0, 2.0]), true, 0.0);
    assert Position(t, 0.0) == Some(0.0);
    assert NextPointIndex([1.0, 2.0], 0.5) == 0;
  }

  /** `start` on an empty list schedules nothing and leaves the clock unset. */
  lemma StartWithoutPoints()
    ensures var a := Start(CuePointsTracker.Init(DefaultMinInterval), 0.0);
      |a.executor.pending| == 0 && Position(a, 0.0).None?
  {
  }
}

=== FILE: search.dfy ===
/**
 The array queries the tracker makes on its cue points: Swift's
 `firstIndex(where:)` and `lastIndex(where:)` on an array slice (whose
 indices are those of the whole array) and the closed range `a...b`
 mapped to an array of indices.
 */
module CueSearch {
  import opened Wrappers

  /** Non-decreasing order, the caller's promise about cue points. */
  ghost predicate Sorted(xs: seq<real>) {
    forall i, j :: 0 <= i <= j < |xs| ==> xs[i] <= xs[j]
  }

  /** `xs[lo..<hi].firstIndex(where: { $0 > bound })`. */
  function FirstAbove(xs: seq<real>, bound: real, lo: nat, hi: nat): (r: Option<nat>)
    requires lo <= hi <= |xs|
    ensures r.Some? ==> lo <= r.value < hi && xs[r.value] > bound
    ensures r.Some? ==> forall j :: lo <= j < r.value ==> xs[j] <= bound
    ensures r.None? <==> forall j :: lo <= j < hi ==> xs[j] <= bound
    decreases hi - lo
  {
    if lo == hi then None
    else if xs[lo] > bound then Some(lo)
    else FirstAbove(xs, bound, lo + 1, hi)
  }

  /** `xs[lo...].lastIndex(where: { $0 <= bound })`. */
  function LastAtMost(xs: seq<real>, bound: real, lo: nat): (r: Option<nat>)
    requires lo <= |xs|
    ensures r.Some? ==> lo <= r.value < |xs| && xs[r.value] <= bound
    ensures r.Some? ==> forall j :: r.value < j < |xs| ==> xs[j] > bound
    ensures r.None? <==> forall j :: lo <= j < |xs| ==> xs[j] > bound
  {
    LastAtMostBelow(xs, bound, lo, |xs|)
  }

  function LastAtMostBelow(xs: seq<real>, bound: real, lo: nat, hi: nat): (r: Option<nat>)
    requires lo <= hi <= |xs|
    ensures r.Some? ==> lo <= r.value < hi && xs[r.value] <= bound
    ensures r.Some? ==> forall j :: r.value < j < hi ==> xs[j] > bound
    ensures r.None? <==> forall j :: lo <= j < hi ==> xs[j] > bound
    decreases hi - lo
  {
    if lo == hi then None
    else if xs[hi - 1] <= bound then Some(hi - 1)
    else LastAtMostBelow(xs, bound, lo, hi - 1)
  }

  /** `(lo...hi).map { $0 }`: the ascending run of indices from lo to hi. */
  function Range(lo: nat, hi: nat): (r: seq<nat>)
    requires lo <= hi
    ensures |r| == hi - lo + 1
    ensures forall k :: 0 <= k < |r| ==> r[k] == lo + k
  {
    seq(hi - lo + 1, k requires 0 <= k <= hi - lo => lo + k)
  }
}

=== FILE: tracker.dfy ===
/**
 A model of `CuePointsTrackerImpl`. The tracker is an immutable record with
 the class's stored properties, and each operation is a function returning
 the next record. Every operation that reads the wall clock takes the
 instant `now` (every `Date()` read during one call sees the same instant);
 `add` does not read it. `seek` and a closure firing also return the
 delegate calls they make, in order; `start` and `pause` make none and
 return only the record. The executor is the wrapping-counter model of
 `TaskExecutor`, and the closure `startWaitingForNextPoint` schedules is the
 `Advance` tag it captured.
 */
module CuePointsTracker {
  import opened Wrappers
  import opened TaskExecutor
  import opened CueSearch

  /** The default debounce gap, `minDelegateInvokationInterval`. */
  const DefaultMinInterval: real := 0.5

  /** The captures of the look-ahead closure: the first index it will
      report and the index it waits for. */
  datatype Advance = Advance(start: nat, next: nat)

  /** The two delegate callbacks. */
  datatype Event =
    | WentThrough(indices: seq<nat>)
    | Restored(indices: seq<nat>)

  datatype Tracker = Tracker(
    points: seq<real>,
    startDate: Option<real>,
    isPlaying: bool,
    staticCurrentTime: real,
    lastSent: Option<nat>,
    minInterval: real,
    executor: Executor<Advance>)

  /** What the `currentTime` getter returns, and the record after it ran
      (the getter may move `startDate`). */
  datatype Reading = Reading(time: Option<real>, state: Tracker)

  /** The record after an operation and the delegate calls it made. */
  datatype Step = Step(state: Tracker, events: seq<Event>)

  /** Facts every reachable record satisfies; they are what keeps the
      force-unwraps and subscripts of the Swift code from trapping. */
  ghost predicate WellFormed(s: Tracker) {
    && (s.isPlaying ==> s.startDate.Some?)
    && (s.startDate.Some? ==> |s.points| > 0)
    && (s.lastSent.Some? ==> s.startDate.Some? && s.lastSent.value < |s.points|)
    && (|s.executor.pending| > 0 ==> s.startDate.Some?)
    && (forall k :: 0 <= k < |s.executor.pending| ==> s.executor.pending[k].handler.next < |s.points|)
  }

  function LastPoint(points: seq<real>): real
    requires |points| > 0
  {
    points[|points| - 1]
  }

  /** `init(executor:minDelegateInvokationInterval:)` with a fresh executor. */
  function Init(minInterval: real): (s: Tracker)
    ensures WellFormed(s)
    ensures s.startDate.None? && !s.isPlaying && s.lastSent.None? && s.points == []
    ensures s.minInterval == minInterval
    ensures s.executor.counter == 0 && s.executor.pending == []
  {
    Tracker([], None, false, 0.0, None, minInterval, TaskExecutor.Init())
  }

  /** The `currentTime` getter. */
  function CurrentTime(s: Tracker, now: real): (r: Reading)
    ensures r.time.None? <==> s.startDate.None?
    ensures r.state == s.(startDate := r.state.startDate)
    ensures r.state.startDate.Some? <==> s.startDate.Some?
    ensures s.isPlaying && s.startDate.Some? ==>
      && r.time.value <= now - s.startDate.value
      && (|s.points| > 0 ==> r.time.value <= LastPoint(s.points))
      && (r.time.value == now - s.startDate.value || (|s.points| > 0 && r.time.value == LastPoint(s.points)))
      && r.state.startDate == Some(now - r.time.value)
    ensures !s.isPlaying && s.startDate.Some? ==> r.time == Some(s.staticCurrentTime)
  {
    match s.startDate
    case None => Reading(None, s)
    case Some(startDate) =>
      var onPlayingTime := now - startDate;
      if |s.points| > 0 && onPlayingTime > LastPoint(s.points) then
        var lastPoint := LastPoint(s.points);
        Reading(Some(if s.isPlaying then lastPoint else s.staticCurrentTime),
                s.(startDate := Some(now - lastPoint)))
      else
        Reading(Some(if s.isPlaying then onPlayingTime else s.staticCurrentTime), s)
  }

  /** The value the getter would return at instant t. */
  function Position(s: Tracker, t: real): Option<real> {
    CurrentTime(s, t).time
  }

  /** The `didSet` observer of `isPlaying`, run by assigning `playing`. */
  function SetPlaying(s: Tracker, playing: bool, now: real): (r: Tracker)
    requires WellFormed(s)
    requires playing ==> |s.points| > 0
    ensures WellFormed(r)
    ensures r.isPlaying == playing
    ensures r.points == s.points && r.lastSent == s.lastSent && r.executor == s.executor
    ensures r.minInterval == s.minInterval
    // an unchanged flag changes nothing
    ensures playing == s.isPlaying ==> r == s
    // the first play starts the clock at now
    ensures playing && !s.isPlaying && s.startDate.None? ==>
      r.startDate == Some(now) && r.staticCurrentTime == s.staticCurrentTime
    // a resume backdates the start so that the clock reads the snapshot
    ensures playing && !s.isPlaying && s.startDate.Some? ==>
      r.startDate == Some(now - s.staticCurrentTime) && r.staticCurrentTime == s.staticCurrentTime
    // a pause snapshots the elapsed time and keeps the start
    ensures !playing && s.isPlaying ==>
      r.staticCurrentTime == now - s.startDate.value && r.startDate == s.startDate
  {
    if playing == s.isPlaying then s
    else if playing then
      s.(isPlaying := true,
         startDate := Some(if s.startDate.None? then now else now - s.staticCurrentTime))
    else
      s.(isPlaying := false, staticCurrentTime := now - s.startDate.value)
  }

  /** `startIndexForForwarding`: the first index not yet reported going
      forward, or none when the cursor already sits on the final index. */
  function StartIndexForForwarding(s: Tracker): (r: Option<nat>)
    ensures r.None? <==> s.lastSent.Some? && s.lastSent.value >= |s.points| - 1
    ensures r.Some? ==> r.value == (if s.lastSent.None? then 0 else s.lastSent.value + 1)
    ensures r.Some? && |s.points| > 0 ==> r.value < |s.points|
  {
    match s.lastSent
    case Some(lastSent) => if lastSent < |s.points| - 1 then Some(lastSent + 1) else None
    case None => Some(0)
  }

  /** `cuePoints.firstIndex(where: { $0 > bound }) ?? cuePoints.count - 1`. */
  function NextPointIndex(points: seq<real>, bound: real): (r: nat)
    requires |points| > 0
    ensures r < |points|
    ensures forall j :: 0 <= j < r ==> points[j] <= bound
    ensures points[r] > bound || (r == |points| - 1 && points[r] <= bound)
  {
    match FirstAbove(points, bound, 0, |points|)
    case Some(i) => i
    case None => |points| - 1
  }

  /** `startWaitingForNextPoint`: read the clock, and unless it is unset or
      every point was already reported, schedule one closure that reports
      the run from the first unreported index up to the first point beyond
      the debounce gap, due when the clock reaches that point. */
  function WaitForNextPoint(s: Tracker, now: real): (r: Tracker)
    requires WellFormed(s)
    ensures WellFormed(r)
    ensures r.(executor := s.executor) == CurrentTime(s, now).state
    ensures r.points == s.points && r.lastSent == s.lastSent && r.isPlaying == s.isPlaying
    ensures Position(s, now).None? || StartIndexForForwarding(s).None? ==> r.executor == s.executor
    ensures Position(s, now).Some? && StartIndexForForwarding(s).Some? ==>
      var t := Position(s, now).value;
      var next := NextPointIndex(s.points, t + s.minInterval);
      r.executor == Execute(s.executor, now, s.points[next] - t,
                            Advance(StartIndexForForwarding(s).value, next))
  {
    var reading := CurrentTime(s, now);
    var s1 := reading.state;
    if reading.time.None? then s1
    else match StartIndexForForwarding(s1)
      case None => s1
      case Some(start) =>
        var currentTime := reading.time.value;
        var next := NextPointIndex(s1.points, currentTime + s1.minInterval);
        var delay := s1.points[next] - currentTime;
        s1.(executor := Execute(s1.executor, now, delay, Advance(start, next)))
  }

  /** `start()`. */
  function Start(s: Tracker, now: real): (r: Tracker)
    requires WellFormed(s)
    ensures WellFormed(r)
    ensures |s.points| == 0 || s.isPlaying ==> r == s
    ensures |s.points| > 0 ==> r.isPlaying && r.startDate.Some?
    ensures r.points == s.points && r.lastSent == s.lastSent
    // a start that is not a no-op queues the look-ahead closure, unless
    // every point was already reported
    ensures |s.points| > 0 && !s.isPlaying && StartIndexForForwarding(s).Some? ==>
      && |r.executor.pending| == |s.executor.pending| + 1
      && r.executor.pending[..|s.executor.pending|] == s.executor.pending
      && IsLive(r.executor, |s.executor.pending|)
      && r.executor.pending[|s.executor.pending|].handler.start == StartIndexForForwarding(s).value
    ensures |s.points| > 0 && !s.isPlaying && StartIndexForForwarding(s).None? ==>
      r.executor == s.executor
  {
    if |s.points| == 0 || s.isPlaying then s
    else WaitForNextPoint(SetPlaying(s, true, now), now)
  }

  /** `pause()`: snapshot the unclamped elapsed time, then cancel. */
  function Pause(s: Tracker, now: real): (r: Tracker)
    requires WellFormed(s)
    ensures WellFormed(r)
    ensures !r.isPlaying
    ensures r.executor == Cancel(s.executor)
    ensures r.points == s.points && r.lastSent == s.lastSent && r.startDate == s.startDate
    ensures s.isPlaying ==> r.staticCurrentTime == now - s.startDate.value
    ensures !s.isPlaying ==> r.staticCurrentTime == s.staticCurrentTime
  {
    var s1 := SetPlaying(s, false, now);
    s1.(executor := Cancel(s1.executor))
  }

  /** `add(cuePoints:)`. */
  function Add(s: Tracker, cuePoints: seq<real>): (r: Tracker)
    ensures WellFormed(s) ==> WellFormed(r)
    ensures r.points == s.points + cuePoints
    ensures r.(points := s.points) == s
  {
    s.(points := s.points + cuePoints)
  }

  /** The target `seek(to:)` moves the clock to: above the last point it is
      the last point, otherwise below zero it is zero. */
  function Corrected(points: seq<real>, seconds: real): (r: real)
    ensures |points| > 0 && LastPoint(points) >= 0.0 ==> 0.0 <= r <= LastPoint(points)
    ensures |points| > 0 && 0.0 <= seconds <= LastPoint(points) ==> r == seconds
    ensures |points| > 0 && seconds > LastPoint(points) ==> r == LastPoint(points)
    ensures (|points| == 0 || seconds <= LastPoint(points)) && seconds < 0.0 ==> r == 0.0
  {
    if |points| > 0 && seconds > LastPoint(points) then LastPoint(points)
    else if seconds < 0.0 then 0.0
    else seconds
  }

  /** `indicesForPoints(currentTime:destinationTime:)`. Going forward: the
      run from the first unreported index to the last index whose point is
      at most the destination. Going back: the run from the first index up
      to the cursor whose point is beyond the destination, to the cursor. */
  function IndicesForPoints(s: Tracker, currentTime: real, destination: real): (r: Option<seq<nat>>)
    requires WellFormed(s)
    ensures r.Some? ==> |r.value| > 0 && r.value[|r.value| - 1] < |s.points|
    ensures r.Some? ==> forall k :: 0 <= k < |r.value| ==> r.value[k] == r.value[0] + k
    // forward
    ensures destination > currentTime && r.Some? ==>
      && StartIndexForForwarding(s) == Some(r.value[0])
      && s.points[r.value[|r.value| - 1]] <= destination
      && forall j :: r.value[|r.value| - 1] < j < |s.points| ==> s.points[j] > destination
    ensures destination > currentTime && r.None? <==>
      destination > currentTime &&
      (StartIndexForForwarding(s).None? ||
       forall j :: StartIndexForForwarding(s).value <= j < |s.points| ==> s.points[j] > destination)
    // backward
    ensures destination <= currentTime && s.lastSent.None? ==> r.None?
    ensures destination <= currentTime && r.Some? ==>
      && s.lastSent == Some(r.value[|r.value| - 1])
      && s.points[r.value[0]] > destination
      && forall j :: 0 <= j < r.value[0] ==> s.points[j] <= destination
    ensures destination <= currentTime && s.lastSent.Some? ==>
      (r.None? <==> forall j :: 0 <= j <= s.lastSent.value ==> s.points[j] <= destination)
  {
    if destination > currentTime then
      match StartIndexForForwarding(s)
      case None => None
      case Some(start) =>
        match LastAtMost(s.points, destination, start)
        case None => None
        case Some(end) => if end >= start then Some(Range(start, end)) else None
    else
      match s.lastSent
      case None => None
      case Some(end) =>
        match FirstAbove(s.points, destination, 0, end + 1)
        case None => None
        case Some(start) => if end >= start then Some(Range(start, end)) else None
  }

  /** `seek(to:)`. */
  function Seek(s: Tracker, seconds: real, now: real): (r: Step)
    requires WellFormed(s)
    ensures WellFormed(r.state)
    ensures r.state.points == s.points && r.state.isPlaying == s.isPlaying
    ensures r.state.minInterval == s.minInterval
    ensures |r.events| <= 1
  {
    var s0 := s.(executor := Cancel(s.executor));
    var correctedSeconds := Corrected(s0.points, seconds);
    var reading := CurrentTime(s0, now);
    if reading.time.None? || reading.time.value == seconds then Step(reading.state, [])
    else
      var currentTime := reading.time.value;
      var s2 := MoveClock(reading.state, currentTime, correctedSeconds);
      var moved := Report(s2, IndicesForPoints(s2, currentTime, seconds), seconds > currentTime);
      if moved.state.isPlaying then Step(WaitForNextPoint(moved.state, now), moved.events)
      else moved
  }

  /** The clock move of `seek(to:)`: a playing clock shifts its start date by
      the distance travelled, a paused one takes the corrected target. */
  function MoveClock(s: Tracker, currentTime: real, correctedSeconds: real): (r: Tracker)
    requires WellFormed(s) && s.startDate.Some?
    ensures WellFormed(r) && r.startDate.Some?
    ensures r.points == s.points && r.isPlaying == s.isPlaying && r.lastSent == s.lastSent
    ensures r.executor == s.executor && r.minInterval == s.minInterval
    ensures s.isPlaying ==> r.startDate.value - s.startDate.value == currentTime - correctedSeconds
    ensures !s.isPlaying ==> r.staticCurrentTime == correctedSeconds
  {
    if s.isPlaying then s.(startDate := Some(s.startDate.value + (currentTime - correctedSeconds)))
    else s.(staticCurrentTime := correctedSeconds)
  }

  /** The delegate call of `seek(to:)` for the crossed run, and the cursor
      move that goes with it. */
  function Report(s: Tracker, indices: Option<seq<nat>>, isForward: bool): (r: Step)
    requires WellFormed(s) && s.startDate.Some?
    requires indices.Some? ==> |indices.value| > 0 && indices.value[|indices.value| - 1] < |s.points|
    requires indices.Some? ==> forall k :: 0 <= k < |indices.value| ==> indices.value[k] == indices.value[0] + k
    ensures WellFormed(r.state)
    ensures r.state == s.(lastSent := r.state.lastSent)
    ensures indices.None? ==> r.events == [] && r.state == s
    ensures indices.Some? && isForward ==>
      r.events == [WentThrough(indices.value)] &&
      r.state.lastSent == Some(indices.value[|indices.value| - 1])
    ensures indices.Some? && !isForward ==>
      r.events == [Restored(indices.value)] &&
      r.state.lastSent == (if indices.value[0] > 0 then Some(indices.value[0] - 1) else None)
  {
    match indices
    case None => Step(s, [])
    case Some(run) =>
      var firstIndex := run[0];
      var lastIndex := run[|run| - 1];
      if isForward then Step(s.(lastSent := Some(lastIndex)), [WentThrough(run)])
      else Step(s.(lastSent := if firstIndex > 0 then Some(firstIndex - 1) else None), [Restored(run)])
  }

  /** The dispatch queue runs the k-th queued closure at `now`, no earlier
      than its deadline. A stale closure does nothing. A live one reports
      the captured run, moves the cursor to the index it waited for and
      waits for the next point. `None` stands for the runtime trap of the
      closed range `start...nextPointIndex` when start exceeds it. */
  function Fire(s: Tracker, k: nat, now: real): (r: Option<Step>)
    requires WellFormed(s)
    requires k < |s.executor.pending|
    requires s.executor.pending[k].deadline <= now
    ensures r.Some? ==> WellFormed(r.value.state)
    ensures r.Some? ==> r.value.state.points == s.points && r.value.state.isPlaying == s.isPlaying
    ensures TaskExecutor.Fire(s.executor, k).1.None? ==>
      r == Some(Step(s.(executor := TaskExecutor.Fire(s.executor, k).0), []))
    ensures TaskExecutor.Fire(s.executor, k).1.Some? ==>
      var h := s.executor.pending[k].handler;
      (r.None? <==> h.start > h.next) &&
      (r.Some? ==> r.value.events == [WentThrough(Range(h.start, h.next))] &&
                   r.value.state.lastSent == Some(h.next))
    // a live firing waits for the next point again (the self-recursive call)
    ensures TaskExecutor.Fire(s.executor, k).1.Some? ==>
      var h := s.executor.pending[k].handler;
      h.start <= h.next && h.next < |s.points| - 1 ==>
        && r.Some?
        && |r.value.state.executor.pending| == |s.executor.pending|
        && r.value.state.executor.pending[..|s.executor.pending| - 1] == TaskExecutor.Fire(s.executor, k).0.pending
        && IsLive(r.value.state.executor, |s.executor.pending| - 1)
        && r.value.state.executor.pending[|s.executor.pending| - 1].handler.start == h.next + 1
    ensures TaskExecutor.Fire(s.executor, k).1.Some? ==>
      var h := s.executor.pending[k].handler;
      h.start <= h.next && h.next == |s.points| - 1 ==>
        r.Some? && r.value.state.executor == TaskExecutor.Fire(s.executor, k).0
  {
    var fired := TaskExecutor.Fire(s.executor, k);
    var s1 := s.(executor := fired.0);
    match fired.1
    case None => Some(Step(s1, []))
    case Some(handler) =>
      var start := handler.start;
      var next := handler.next;
      if start > next then None
      else Some(Step(WaitForNextPoint(s1.(lastSent := Some(next)), now), [WentThrough(Range(start, next))]))
  }
}

=== FILE: tracker_invariant.dfy ===
/**
 The invariant that keeps the tracker's reports consistent with its clock:
 every point up to the cursor lies at or before the clock, and every live
 look-ahead closure waits for a point the clock will have reached by the
 time the closure is due, with a well-formed range start...next. It holds
 initially, survives the passing of time, and is kept by `add` (of points
 that keep the list sorted), `pause`, `start`, `seek` and the queue firing a
 closure, as long as no queued closure is about to be revived by the
 executor counter wrapping around.
 */
module TrackerInvariant {
  import opened Wrappers
  import opened TaskExecutor
  import opened CueSearch
  import opened CuePointsTracker
  import opened TrackerProperties

  function Max(a: real, b: real): real {
    if a < b then b else a
  }

  /** Every point the observer was told about lies at or before the clock. */
  ghost predicate CursorBehindClock(s: Tracker, now: real) {
    s.lastSent.Some? ==>
      && Position(s, now).Some?
      && forall i :: 0 <= i <= s.lastSent.value && i < |s.points| ==> s.points[i] <= Position(s, now).value
  }

  /** The clock reads at least points[i] at instant t. */
  ghost predicate Reached(s: Tracker, i: nat, t: real) {
    i < |s.points| && Position(s, t).Some? && s.points[i] <= Position(s, t).value
  }

  /** A live closure only exists while playing, its range start...next is
      well formed, and once it is due the clock has reached its point. */
  ghost predicate LiveClosuresAhead(s: Tracker, now: real) {
    forall k :: 0 <= k < |s.executor.pending| && IsLive(s.executor, k) ==>
      && s.isPlaying
      && s.executor.pending[k].handler.start <= s.executor.pending[k].handler.next
      && Reached(s, s.executor.pending[k].handler.next, Max(now, s.executor.pending[k].deadline))
  }

  ghost predicate Good(s: Tracker, now: real) {
    && WellFormed(s)
    && Sorted(s.points)
    && s.minInterval >= 0.0
    && Valid(s.executor)
    && CursorBehindClock(s, now)
    && LiveClosuresAhead(s, now)
  }

  /** No queued closure comes back to life within the next n bumps of the
      counter; `seek` bumps it at most twice, `start`, `pause` and a firing
      at most once. */
  ghost predicate NotRevivedWithin(ex: Executor<Advance>, n: nat) {
    forall k, m :: 0 <= k < |ex.pending| && 1 <= m <= n ==> ex.pending[k].gen != Bumps(ex.counter, m)
  }

  lemma {:induction false} BumpsShift(c: nat, m: nat)
    ensures Bumps(NextCounter(c), m) == Bumps(c, m + 1)
  {
    if m > 0 {
      BumpsShift(c, m - 1);
    }
  }

  lemma CancelNotRevived(ex: Executor<Advance>, n: nat)
    requires NotRevivedWithin(ex, n + 1)
    ensures NotRevivedWithin(Cancel(ex), n)
    ensures forall k :: 0 <= k < |ex.pending| ==> !IsLive(Cancel(ex), k)
  {
    forall k, m | 0 <= k < |ex.pending| && 1 <= m <= n
      ensures ex.pending[k].gen != Bumps(Cancel(ex).counter, m)
    {
      BumpsShift(ex.counter, m);
    }
    forall k | 0 <= k < |ex.pending|
      ensures !IsLive(Cancel(ex), k)
    {
      assert ex.pending[k].gen != Bumps(ex.counter, 1);
    }
  }

  lemma GoodInit(minInterval: real, now: real)
    requires minInterval >= 0.0
    ensures Good(CuePointsTracker.Init(minInterval), now)
  {
  }

  /** The invariant survives the passing of time. */
  lemma GoodOverTime(s: Tracker, now: real, later: real)
    requires Good(s, now)
    requires now <= later
    ensures Good(s, later)
  {
    if s.startDate.Some? {
      PositionMonotonic(s, now, later);
    }
    forall k | 0 <= k < |s.executor.pending| && IsLive(s.executor, k)
      ensures Reached(s, s.executor.pending[k].handler.next, Max(later, s.executor.pending[k].deadline))
    {
      var d := s.executor.pending[k].deadline;
      PositionMonotonic(s, Max(now, d), Max(later, d));
    }
  }

  /** Appending points never moves the clock back. */
  lemma AddNotBehind(s: Tracker, cuePoints: seq<real>, t: real)
    requires WellFormed(s)
    requires Sorted(s.points + cuePoints)
    requires s.startDate.Some?
    ensures Position(Add(s, cuePoints), t).value >= Position(s, t).value
  {
    var r := Add(s, cuePoints);
    assert s.points[|s.points| - 1] == r.points[|s.points| - 1];
  }

  /** `add` keeps the invariant when the longer list is still sorted. */
  lemma AddKeepsGood(s: Tracker, cuePoints: seq<real>, now: real)
    requires Good(s, now)
    requires Sorted(s.points + cuePoints)
    ensures Good(Add(s, cuePoints), now)
  {
    var r := Add(s, cuePoints);
    if s.startDate.Some? {
      AddNotBehind(s, cuePoints, now);
      forall i | 0 <= i < |s.points|
        ensures r.points[i] == s.points[i]
      {
      }
    }
    forall k | 0 <= k < |r.executor.pending| && IsLive(r.executor, k)
      ensures Reached(r, r.executor.pending[k].handler.next, Max(now, r.executor.pending[k].deadline))
    {
      var d := r.executor.pending[k].deadline;
      assert Reached(s, s.executor.pending[k].handler.next, Max(now, d));
      AddNotBehind(s, cuePoints, Max(now, d));
    }
  }

  /** `pause` keeps the invariant: the unclamped snapshot is never behind
      the clock, and the cancel leaves no live closure. */
  lemma PauseKeepsGood(s: Tracker, now: real)
    requires Good(s, now)
    requires NotRevivedWithin(s.executor, 1)
    ensures Good(Pause(s, now), now)
  {
    CancelNotRevived(s.executor, 0);
  }

  /** The look-ahead keeps the invariant: the closure it queues has a
      well-formed range and is due when the clock reaches its point. */
  lemma WaitKeepsGood(s: Tracker, now: real)
    requires Good(s, now)
    requires s.isPlaying
    requires NotRevivedWithin(s.executor, 1)
    ensures Good(WaitForNextPoint(s, now), now)
  {
    var r := WaitForNextPoint(s, now);
    ReadKeepsPosition(s, now, now);
    SameClockSamePosition(r, CurrentTime(s, now).state, now);
    assert Position(r, now) == Position(s, now);
    if StartIndexForForwarding(s).Some? {
      var t := Position(s, now).value;
      LookAheadNotBehindStart(s, t);
      LookAheadDeadline(s, now);
      CancelNotRevived(s.executor, 0);
      var n := |s.executor.pending|;
      var e := r.executor.pending[n];
      assert e.deadline >= now;
      assert Reached(r, e.handler.next, Max(now, e.deadline));
      forall k | 0 <= k < n
        ensures !IsLive(r.executor, k)
      {
        assert r.executor.pending[k] == s.executor.pending[k];
        assert !IsLive(Cancel(s.executor), k);
      }
    } else {
      forall k | 0 <= k < |r.executor.pending| && IsLive(r.executor, k)
        ensures Reached(r, r.executor.pending[k].handler.next, Max(now, r.executor.pending[k].deadline))
      {
        var d := r.executor.pending[k].deadline;
        assert Reached(s, s.executor.pending[k].handler.next, Max(now, d));
        ReadKeepsPosition(s, now, Max(now, d));
        SameClockSamePosition(r, CurrentTime(s, now).state, Max(now, d));
      }
    }
  }

  /** `start` keeps the invariant. */
  lemma StartKeepsGood(s: Tracker, now: real)
    requires Good(s, now)
    requires NotRevivedWithin(s.executor, 1)
    ensures Good(Start(s, now), now)
  {
    if |s.points| > 0 && !s.isPlaying {
      var p := SetPlaying(s, true, now);
      forall k | 0 <= k < |p.executor.pending|
        ensures !IsLive(p.executor, k)
      {
      }
      WaitKeepsGood(p, now);
    }
  }

  /** After the clock move of `seek`, the clock reads at least the smaller
      of the unclamped target and the last point. */
  lemma MoveClockNotBehindTarget(s: Tracker, t: real, seconds: real, now: real)
    requires WellFormed(s) && s.startDate.Some?
    requires s.isPlaying ==> s.startDate == Some(now - t)
    ensures var m := MoveClock(s, t, Corrected(s.points, seconds));
      && Position(m, now).Some?
      && (seconds <= LastPoint(s.points) ==> Position(m, now).value >= seconds)
      && (seconds > LastPoint(s.points) ==> Position(m, now).value >= LastPoint(s.points))
  {
  }

  /** After the report of `seek`, every point up to the cursor lies at or
      before the unclamped target. */
  lemma ReportBehindTarget(s: Tracker, t: real, seconds: real)
    requires WellFormed(s) && Sorted(s.points) && s.startDate.Some?
    requires seconds != t
    requires s.lastSent.Some? ==> forall i :: 0 <= i <= s.lastSent.value ==> s.points[i] <= t
    ensures var m := Report(s, IndicesForPoints(s, t, seconds), seconds > t).state;
      m.lastSent.Some? ==> forall i :: 0 <= i <= m.lastSent.value ==> s.points[i] <= seconds
  {
    var run := IndicesForPoints(s, t, seconds);
    if run.Some? && seconds > t {
      var last := run.value[|run.value| - 1];
      assert s.points[last] <= seconds;
    }
  }

  /** `seek` keeps the invariant. */
  lemma SeekKeepsGood(s: Tracker, seconds: real, now: real)
    requires Good(s, now)
    requires NotRevivedWithin(s.executor, 2)
    ensures Good(Seek(s, seconds, now).state, now)
  {
    var s0 := s.(executor := Cancel(s.executor));
    CancelNotRevived(s.executor, 1);
    SameClockSamePosition(s, s0, now);
    var reading := CurrentTime(s0, now);
    ReadKeepsPosition(s0, now, now);
    if reading.time.Some? && reading.time.value != seconds {
      var t := reading.time.value;
      var c := Corrected(s.points, seconds);
      var s2 := MoveClock(reading.state, t, c);
      MoveClockNotBehindTarget(reading.state, t, seconds, now);
      ReportBehindTarget(s2, t, seconds);
      var moved := Report(s2, IndicesForPoints(s2, t, seconds), seconds > t);
      SameClockSamePosition(s2, moved.state, now);
      assert moved.state.executor == Cancel(s.executor);
      assert Good(moved.state, now);
      if moved.state.isPlaying {
        WaitKeepsGood(moved.state, now);
      }
    }
  }

  /** The queue minus the fired closure keeps every other closure, in order. */
  lemma RemovedEntries(ex: Executor<Advance>, k: nat)
    requires k < |ex.pending|
    ensures var rest := TaskExecutor.Fire(ex, k).0.pending;
      forall j :: 0 <= j < |rest| ==> rest[j] == ex.pending[if j < k then j else j + 1]
  {
  }

  /** A firing keeps the invariant, and a live closure never traps on its
      range start...nextPointIndex. */
  lemma FireKeepsGood(s: Tracker, k: nat, now: real)
    requires Good(s, now)
    requires k < |s.executor.pending|
    requires s.executor.pending[k].deadline <= now
    requires NotRevivedWithin(s.executor, 1)
    ensures CuePointsTracker.Fire(s, k, now).Some?
    ensures Good(CuePointsTracker.Fire(s, k, now).value.state, now)
  {
    var fired := TaskExecutor.Fire(s.executor, k);
    var s1 := s.(executor := fired.0);
    RemovedEntries(s.executor, k);
    SameClockSamePosition(s, s1, now);
    forall j | 0 <= j < |s1.executor.pending| && IsLive(s1.executor, j)
      ensures Reached(s1, s1.executor.pending[j].handler.next, Max(now, s1.executor.pending[j].deadline))
    {
      var j' := if j < k then j else j + 1;
      assert IsLive(s.executor, j');
      SameClockSamePosition(s, s1, Max(now, s.executor.pending[j'].deadline));
    }
    assert Good(s1, now);
    if fired.1.Some? {
      var h := s.executor.pending[k].handler;
      assert IsLive(s.executor, k);
      assert Reached(s, h.next, now) by {
        assert Max(now, s.executor.pending[k].deadline) == now;
      }
      var s3 := s1.(lastSent := Some(h.next));
      SameClockSamePosition(s1, s3, now);
      forall j | 0 <= j < |s3.executor.pending| && IsLive(s3.executor, j)
        ensures Reached(s3, s3.executor.pending[j].handler.next, Max(now, s3.executor.pending[j].deadline))
      {
        SameClockSamePosition(s1, s3, Max(now, s3.executor.pending[j].deadline));
      }
      assert Good(s3, now);
      WaitKeepsGood(s3, now);
    }
  }
}

=== FILE: tracker_properties.dfy ===
/**
 Properties of single tracker operations: what the clock reads after
 `start`, `pause` and `seek`, which delegate call `seek` makes and where it
 leaves the cursor, and where the look-ahead closure waits.
 */
module TrackerProperties {
  import opened Wrappers
  import opened TaskExecutor
  import opened CueSearch
  import opened CuePointsTracker

  /** The clock only looks at these four fields. */
  predicate SameClock(a: Tracker, b: Tracker) {
    && a.points == b.points
    && a.startDate == b.startDate
    && a.isPlaying == b.isPlaying
    && a.staticCurrentTime == b.staticCurrentTime
  }

  lemma SameClockSamePosition(a: Tracker, b: Tracker, t: real)
    requires SameClock(a, b)
    ensures Position(a, t) == Position(b, t)
  {
  }

  /** Reading the clock never changes what it reads, then or later: the
      `startDate` rewrite in the getter only pins a clamped clock to the
      last point. */
  lemma ReadKeepsPosition(s: Tracker, now: real, t: real)
    requires now <= t
    ensures Position(CurrentTime(s, now).state, t) == Position(s, t)
  {
  }

  /** While playing, the clock never runs backwards. */
  lemma PositionMonotonic(s: Tracker, t: real, t': real)
    requires t <= t'
    requires s.startDate.Some?
    ensures Position(s, t).value <= Position(s, t').value
  {
  }

  /** The value `seek` moves the clock to, stated independently of the
      code's branch order: the target clamped into [0, last point]. */
  function ClampToTimeline(x: real, last: real): real
    requires 0.0 <= last
  {
    if x <= 0.0 then 0.0 else if last <= x then last else x
  }

  lemma CorrectedIsClamp(points: seq<real>, x: real)
    requires |points| > 0 && LastPoint(points) >= 0.0
    ensures Corrected(points, x) == ClampToTimeline(x, LastPoint(points))
  {
  }

  /** Seek early return: with the clock unset, or a target equal to the
      clock, `seek` calls no delegate, keeps the cursor and the clock, and
      leaves the executor cancelled with nothing newly scheduled. */
  lemma SeekEarlyReturn(s: Tracker, seconds: real, now: real)
    requires WellFormed(s)
    requires Position(s, now).None? || Position(s, now).value == seconds
    ensures var r := Seek(s, seconds, now);
      && r.events == []
      && r.state.lastSent == s.lastSent
      && r.state.executor == Cancel(s.executor)
      && Position(r.state, now) == Position(s, now)
  {
    var s0 := s.(executor := Cancel(s.executor));
    SameClockSamePosition(s, s0, now);
    ReadKeepsPosition(s0, now, now);
  }

  /** Seek clamp: on a started clock and a target other than its reading,
      the clock reads the target clamped into [0, last point] right after
      `seek`, whether playing or paused. */
  lemma SeekClamp(s: Tracker, seconds: real, now: real)
    requires WellFormed(s)
    requires Position(s, now).Some? && Position(s, now).value != seconds
    requires LastPoint(s.points) >= 0.0
    ensures Position(Seek(s, seconds, now).state, now) ==
            Some(ClampToTimeline(seconds, LastPoint(s.points)))
  {
    CorrectedIsClamp(s.points, seconds);
    var s0 := s.(executor := Cancel(s.executor));
    SameClockSamePosition(s, s0, now);
    var reading := CurrentTime(s0, now);
    var t := reading.time.value;
    var c := Corrected(s.points, seconds);
    var s1 := reading.state;
    var s2 := MoveClock(s1, t, c);
    assert Position(s2, now) == Some(c);
    var moved := Report(s2, IndicesForPoints(s2, t, seconds), seconds > t);
    SameClockSamePosition(s2, moved.state, now);
    if moved.state.isPlaying {
      var w := WaitForNextPoint(moved.state, now);
      ReadKeepsPosition(moved.state, now, now);
      SameClockSamePosition(w, CurrentTime(moved.state, now).state, now);
    }
  }

  /** The clamp law "seek(x) above the last point behaves as seek(last
      point)" does not hold: the no-op check compares the unclamped target.
      With the clock resting on the last point and nothing reported,
      seeking to the last point is a no-op, while seeking past it reports
      every point. */
  lemma SeekPastEndIsNotSeekToEnd(s: Tracker, beyond: real, now: real)
    requires WellFormed(s) && s.lastSent.None? && |s.points| > 0
    requires Position(s, now) == Some(LastPoint(s.points))
    requires beyond > LastPoint(s.points)
    ensures Seek(s, LastPoint(s.points), now).events == []
    ensures Seek(s, beyond, now).events == [WentThrough(Range(0, |s.points| - 1))]
  {
    SeekEarlyReturn(s, LastPoint(s.points), now);
    var run := IndicesForPoints(s, LastPoint(s.points), beyond);
    assert run.Some?;
    SeekForwardCrossing(s, beyond, now);
    assert run.value == Range(0, |s.points| - 1);
  }

  /** Nor does "seek(x) below zero behaves as seek(0)": with the clock at 0
      and a reported point at 0, seeking to 0 is a no-op, while seeking
      below zero restores that point and unsets the cursor. */
  lemma SeekBelowZeroIsNotSeekToZero(s: Tracker, below: real, now: real)
    requires WellFormed(s) && s.lastSent == Some(0)
    requires |s.points| > 0 && s.points[0] == 0.0
    requires Position(s, now) == Some(0.0)
    requires below < 0.0
    ensures Seek(s, 0.0, now).events == []
    ensures Seek(s, below, now).events == [Restored([0])]
    ensures Seek(s, below, now).state.lastSent.None?
  {
    SeekEarlyReturn(s, 0.0, now);
    var run := IndicesForPoints(s, 0.0, below);
    assert run.Some?;
    SeekBackwardCrossing(s, below, now);
    assert run.value == [0];
  }

  /** Nor does the debounce law "two points closer than the gap are
      reported by one delegate call": the look-ahead batches the points
      within the gap of the clock, not of the point it waits for. Over
      points 5.0, 5.3 and 10.0 with gap 0.5, `start` waits for index 0
      alone; its closure reports [0] at 5.0 and then waits for index 2 at
      10.0, so 5.3 is reported in a second call, 4.7 late. */
  lemma DebounceSplitsClosePoints(points: seq<real>, now: real)
    requires points == [5.0, 5.3, 10.0]
    ensures var s := Start(Add(CuePointsTracker.Init(0.5), points), now);
      && |s.executor.pending| == 1
      && s.executor.pending[0] == Entry(s.executor.counter, now + 5.0, Advance(0, 0))
      && var f := CuePointsTracker.Fire(s, 0, now + 5.0);
         && f.Some?
         && f.value.events == [WentThrough([0])]
         && |f.value.state.executor.pending| == 1
         && f.value.state.executor.pending[0].deadline == now + 10.0
         && f.value.state.executor.pending[0].handler == Advance(1, 2)
  {
    var s0 := Add(CuePointsTracker.Init(0.5), points);
    var p := SetPlaying(s0, true, now);
    assert Position(p, now) == Some(0.0);
    assert NextPointIndex(points, 0.5) == 0;
    var s := Start(s0, now);
    assert s.startDate == Some(now);
    var fired := TaskExecutor.Fire(s.executor, 0);
    var s1 := s.(executor := fired.0).(lastSent := Some(0));
    assert fired.0.pending == [];
    assert Position(s1, now + 5.0) == Some(5.0);
    assert NextPointIndex(points, 5.5) == 2;
    assert Range(0, 0) == [0];
  }

  /** Cursor update, no crossing: a `seek` that does not return early and
      crosses no run calls no delegate and keeps the cursor. */
  lemma SeekWithoutCrossing(s: Tracker, seconds: real, now: real)
    requires WellFormed(s)
    requires Position(s, now).Some? && Position(s, now).value != seconds
    requires IndicesForPoints(s, Position(s, now).value, seconds).None?
    ensures Seek(s, seconds, now).events == []
    ensures Seek(s, seconds, now).state.lastSent == s.lastSent
  {
    SeekIsReport(s, seconds, now);
    var s0 := s.(executor := Cancel(s.executor));
    SameClockSamePosition(s, s0, now);
    var reading := CurrentTime(s0, now);
    IndicesIgnoreClock(s, MoveClock(reading.state, reading.time.value, Corrected(s.points, seconds)),
                       reading.time.value, seconds);
  }

  /** Cursor update, forward: a `seek` past the clock that crosses a run
      reports it as gone through and moves the cursor to its last index. */
  lemma SeekForwardCrossing(s: Tracker, seconds: real, now: real)
    requires WellFormed(s)
    requires Position(s, now).Some? && Position(s, now).value < seconds
    requires IndicesForPoints(s, Position(s, now).value, seconds).Some?
    ensures var run := IndicesForPoints(s, Position(s, now).value, seconds).value;
      && Seek(s, seconds, now).events == [WentThrough(run)]
      && Seek(s, seconds, now).state.lastSent == Some(run[|run| - 1])
  {
    SeekIsReport(s, seconds, now);
    var s0 := s.(executor := Cancel(s.executor));
    SameClockSamePosition(s, s0, now);
    var reading := CurrentTime(s0, now);
    IndicesIgnoreClock(s, MoveClock(reading.state, reading.time.value, Corrected(s.points, seconds)),
                       reading.time.value, seconds);
  }

  /** Cursor update, backward: a `seek` behind the clock that crosses a run
      reports it as restored and moves the cursor just before its first
      index, or unsets it when that index is 0. */
  lemma SeekBackwardCrossing(s: Tracker, seconds: real, now: real)
    requires WellFormed(s)
    requires Position(s, now).Some? && seconds < Position(s, now).value
    requires IndicesForPoints(s, Position(s, now).value, seconds).Some?
    ensures var run := IndicesForPoints(s, Position(s, now).value, seconds).value;
      && Seek(s, seconds, now).events == [Restored(run)]
      && Seek(s, seconds, now).state.lastSent == (if run[0] > 0 then Some(run[0] - 1) else None)
  {
    SeekIsReport(s, seconds, now);
    var s0 := s.(executor := Cancel(s.executor));
    SameClockSamePosition(s, s0, now);
    var reading := CurrentTime(s0, now);
    IndicesIgnoreClock(s, MoveClock(reading.state, reading.time.value, Corrected(s.points, seconds)),
                       reading.time.value, seconds);
  }

  /** A `seek` on a playing clock that does not return early waits for the
      next point again: unless every point is now reported, exactly one live
      look-ahead closure is queued, from the first unreported index;
      otherwise the executor is only cancelled. */
  lemma SeekRewaits(s: Tracker, seconds: real, now: real)
    requires WellFormed(s) && s.isPlaying
    requires Position(s, now).Some? && Position(s, now).value != seconds
    ensures var r := Seek(s, seconds, now).state;
      StartIndexForForwarding(r).Some? ==>
        && |r.executor.pending| == |s.executor.pending| + 1
        && r.executor.pending[..|s.executor.pending|] == s.executor.pending
        && IsLive(r.executor, |s.executor.pending|)
        && r.executor.pending[|s.executor.pending|].handler.start == StartIndexForForwarding(r).value
    ensures var r := Seek(s, seconds, now).state;
      StartIndexForForwarding(r).None? ==> r.executor == Cancel(s.executor)
  {
    var s0 := s.(executor := Cancel(s.executor));
    SameClockSamePosition(s, s0, now);
  }

  /** A `seek` on a paused clock that does not return early queues nothing:
      its executor is only cancelled. */
  lemma SeekPausedOnlyCancels(s: Tracker, seconds: real, now: real)
    requires WellFormed(s) && !s.isPlaying
    requires Position(s, now).Some? && Position(s, now).value != seconds
    ensures Seek(s, seconds, now).state.executor == Cancel(s.executor)
  {
    var s0 := s.(executor := Cancel(s.executor));
    SameClockSamePosition(s, s0, now);
  }

  /** The events and cursor of a `seek` that does not return early are those
      of its report step. */
  lemma SeekIsReport(s: Tracker, seconds: real, now: real)
    requires WellFormed(s)
    requires Position(s, now).Some? && Position(s, now).value != seconds
    ensures var s0 := s.(executor := Cancel(s.executor));
      var t := CurrentTime(s0, now).time.value;
      var s2 := MoveClock(CurrentTime(s0, now).state, t, Corrected(s.points, seconds));
      var moved := Report(s2, IndicesForPoints(s2, t, seconds), seconds > t);
      Seek(s, seconds, now).events == moved.events &&
      Seek(s, seconds, now).state.lastSent == moved.state.lastSent
  {
    var s0 := s.(executor := Cancel(s.executor));
    SameClockSamePosition(s, s0, now);
  }

  /** The crossed run depends on the points and the cursor alone. */
  lemma IndicesIgnoreClock(a: Tracker, b: Tracker, t: real, destination: real)
    requires WellFormed(a) && WellFormed(b)
    requires a.points == b.points && a.lastSent == b.lastSent
    ensures IndicesForPoints(a, t, destination) == IndicesForPoints(b, t, destination)
  {
  }

  /** Forward runs of a sorted list only hold points at most the target. */
  lemma ForwardRunBelowTarget(s: Tracker, t: real, destination: real)
    requires WellFormed(s) && Sorted(s.points)
    requires destination > t
    requires IndicesForPoints(s, t, destination).Some?
    ensures var run := IndicesForPoints(s, t, destination).value;
      forall k :: 0 <= k < |run| ==> s.points[run[k]] <= destination
  {
  }

  /** Backward runs of a sorted list only hold points beyond the target. */
  lemma BackwardRunAboveTarget(s: Tracker, t: real, destination: real)
    requires WellFormed(s) && Sorted(s.points)
    requires destination <= t
    requires IndicesForPoints(s, t, destination).Some?
    ensures var run := IndicesForPoints(s, t, destination).value;
      forall k :: 0 <= k < |run| ==> s.points[run[k]] > destination
  {
  }

  /** The first `start` sets the clock to zero. */
  lemma FirstStartReadsZero(s: Tracker, now: real)
    requires WellFormed(s)
    requires s.startDate.None? && |s.points| > 0 && LastPoint(s.points) >= 0.0
    ensures Position(Start(s, now), now) == Some(0.0)
  {
    var p := SetPlaying(s, true, now);
    ReadKeepsPosition(p, now, now);
    SameClockSamePosition(Start(s, now), CurrentTime(p, now).state, now);
  }

  /** `start` while paused resumes from the snapshot when it lies within
      the timeline. */
  lemma ResumeReadsSnapshot(s: Tracker, now: real)
    requires WellFormed(s)
    requires !s.isPlaying && s.startDate.Some?
    requires s.staticCurrentTime <= LastPoint(s.points)
    ensures Position(Start(s, now), now) == Some(s.staticCurrentTime)
  {
    var p := SetPlaying(s, true, now);
    ReadKeepsPosition(p, now, now);
    SameClockSamePosition(Start(s, now), CurrentTime(p, now).state, now);
  }

  /** Pause/resume continuity: `pause` then `start` at the same instant
      leave the clock reading what it read before. */
  lemma PauseResumeContinuity(s: Tracker, now: real)
    requires WellFormed(s)
    requires s.isPlaying
    ensures Position(Start(Pause(s, now), now), now) == Position(s, now)
  {
    var q := Pause(s, now);
    var p := SetPlaying(q, true, now);
    assert p.startDate == s.startDate;
    assert Position(p, now) == Position(s, now);
    ReadKeepsPosition(p, now, now);
    SameClockSamePosition(Start(q, now), CurrentTime(p, now).state, now);
  }

  /** A second `pause` keeps the snapshot and the clock. */
  lemma PauseIsIdempotent(s: Tracker, now: real, later: real, t: real)
    requires WellFormed(s)
    ensures Pause(Pause(s, now), later).staticCurrentTime == Pause(s, now).staticCurrentTime
    ensures Position(Pause(Pause(s, now), later), t) == Position(Pause(s, now), t)
  {
    SameClockSamePosition(Pause(Pause(s, now), later), Pause(s, now), t);
  }

  /** The pause snapshot is not clamped: pausing a clock that has run past
      the last point (with no read in between) records the full elapsed
      time, beyond what the clock read an instant before. */
  lemma PauseSnapshotUnclamped(s: Tracker, now: real)
    requires WellFormed(s)
    requires s.isPlaying && now - s.startDate.value > LastPoint(s.points)
    ensures Position(s, now) == Some(LastPoint(s.points))
    ensures Position(Pause(s, now), now) == Some(now - s.startDate.value)
    ensures Position(Pause(s, now), now).value > Position(s, now).value
  {
  }

  /** Look-ahead never waits behind the first unreported index: when every
      point up to the cursor lies at or before the clock and the debounce
      gap is not negative, the closed range start...next is well formed. */
  lemma LookAheadNotBehindStart(s: Tracker, t: real)
    requires |s.points| > 0
    requires s.minInterval >= 0.0
    requires StartIndexForForwarding(s).Some?
    requires s.lastSent.Some? ==> forall i :: 0 <= i <= s.lastSent.value && i < |s.points| ==> s.points[i] <= t
    ensures StartIndexForForwarding(s).value <= NextPointIndex(s.points, t + s.minInterval)
  {
  }

  /** ... and the gap condition is needed: with a negative gap the closure
      can wait behind the first unreported index, and its range traps. */
  lemma LookAheadNeedsGap(s: Tracker)
    requires s.points == [1.0, 2.0] && s.lastSent == Some(0) && s.minInterval == -0.5
    ensures StartIndexForForwarding(s) == Some(1)
    ensures NextPointIndex(s.points, 1.0 + s.minInterval) == 0
  {
  }

  /** The look-ahead closure is due exactly when a sorted clock, left
      alone, reaches the point it waits for. */
  lemma LookAheadDeadline(s: Tracker, now: real)
    requires WellFormed(s) && Sorted(s.points)
    requires s.isPlaying
    requires StartIndexForForwarding(s).Some?
    ensures var r := WaitForNextPoint(s, now);
      var e := r.executor.pending[|s.executor.pending|];
      && |r.executor.pending| == |s.executor.pending| + 1
      && e.handler.next < |s.points|
      && (e.deadline >= now ==> Position(r, e.deadline) == Some(s.points[e.handler.next]))
  {
    var r := WaitForNextPoint(s, now);
    var e := r.executor.pending[|s.executor.pending|];
    var t := Position(s, now).value;
    assert r.startDate == Some(now - t);
    assert e.deadline == now + s.points[e.handler.next] - t;
  }

  /** Every point within the debounce gap of the clock lies at or before the
      index the look-ahead waits for. This bounds the batch from above only;
      it is not the debounce law, which fails (`DebounceSplitsClosePoints`). */
  lemma LookAheadBatches(s: Tracker, t: real, j: nat)
    requires Sorted(s.points) && |s.points| > 0
    requires j < |s.points| && s.points[j] <= t + s.minInterval
    ensures j <= NextPointIndex(s.points, t + s.minInterval)
  {
  }

  /** Forward crossing on a sorted list: the run is exactly the indices from
      the first unreported one up to the last point at most the target. */
  lemma ForwardRunIs(s: Tracker, t: real, destination: real, lo: nat, hi: nat)
    requires WellFormed(s) && Sorted(s.points)
    requires t < destination
    requires StartIndexForForwarding(s) == Some(lo)
    requires lo <= hi < |s.points|
    requires s.points[hi] <= destination
    requires hi + 1 < |s.points| ==> s.points[hi + 1] > destination
    ensures IndicesForPoints(s, t, destination) == Some(Range(lo, hi))
  {
    var r := IndicesForPoints(s, t, destination);
    assert r.Some?;
    var run := r.value;
    var e := run[|run| - 1];
    assert e == hi;
    assert |run| == hi - lo + 1;
  }

  /** Backward crossing on a sorted list: the run is exactly the indices
      from the first point beyond the target up to the cursor. */
  lemma BackwardRunIs(s: Tracker, t: real, destination: real, lo: nat)
    requires WellFormed(s) && Sorted(s.points)
    requires destination <= t
    requires s.lastSent.Some? && lo <= s.lastSent.value
    requires s.points[lo] > destination
    requires lo > 0 ==> s.points[lo - 1] <= destination
    ensures IndicesForPoints(s, t, destination) == Some(Range(lo, s.lastSent.value))
  {
    var r := IndicesForPoints(s, t, destination);
    assert r.Some?;
    var run := r.value;
    assert run[0] == lo;
    assert |run| == s.lastSent.value - lo + 1;
  }
}

=== FILE: wrappers.dfy ===
/** Optional values, standing in for Swift's `T?`. */
module Wrappers {

  datatype Option<+T> = None | Some(value: T)
}
